=== FILE: README.md ===
# Blip document core

A model of the editable-document core of the Wave robot API's `waveapi/blip.py`.

A blip holds three things:
- a text buffer;
- an element table, mapping an offset to an element that takes up one placeholder character;
- an annotation store, mapping an annotation name to a list of `(name, value, start, end)` entries.

Selections ("blip refs") resolve to ordered `(start, end)` hits. Mutations are applied hit by hit.

The model has five modules:

| module | file | what it holds |
|---|---|---|
| `Common` | common.dfy | `Option`, `Result`, the error kinds, and in-order subsequences |
| `Annotations` | annotations.dfy | boundary shifting; the add (merge/split) and remove (clip) passes of the annotation store |
| `Document` | document.dfy | the document and element shifting |
| `Selection` | selection.dfy | text search, element search, whole-document and explicit-range selectors, and `__nonzero__` |
| `Executor` | executor.dfy | the per-hit body of `_execute`, the run over all hits, `append`, and `value` |

How the source is represented:
- Text is `seq<char>`.
- The element table is a `map<int, Element>`. An `Element` is a kind tag plus a string property map.
- The annotation store is a `map<string, seq<Annotation>>`.
- Each operation is a pure function from the old document to a new one, or to an error.
- `Execute` is the loop of `_execute`, written as a method. Its loop keeps the round-robin value index modulo the number of values, as the source does, and one turn of it is the method `Advance`. It is proved equal to the recursive run `RunHits`, in which hit `i` takes value number `i`.

Element iteration order is fixed to ascending offsets. The source walks its element table in the dictionary's own order. That order decides two things:
- which element wins when two elements land on the same offset during a shift (the one moved later);
- the order of element-search hits.

How the code builds annotation ranges:
- **Reversed right remainder.** Splitting in `_add_internal` (waveapi/blip.py:97-98) and clipping in `_delete_internal` (waveapi/blip.py:120) build the right remainder as `(old end, end)`. The larger bound comes first, so the piece is not a well-formed range. `Annotations.AddSplitExample` shows the result `(n, "a", 10, 6)` for a split of `(n, "a", 0, 10)` at `(4, 6)`. `Annotations.RemoveClipExample` does the same for clipping.
- **Same-name entries can still touch after an add.** A same-value entry widens the range only for the entries visited after it (waveapi/blip.py:84-91). An entry visited earlier was tested against the narrower range and may be kept unchanged beside the widened one. So the result of an add depends on the order of the stored list. `Annotations.AddDependsOnOrder` shows two orders of the same entries giving different results.

When clearing, the code drops an entry outright only when the cleared range strictly contains it (waveapi/blip.py:114). An entry that shares a bound with the range is clipped to nothing, so it disappears too. `Annotations.Clip` states both cases as one rule.

Text search with an empty pattern: `find('', i)` returns `i`, so the search never moves on. With a positive cap it yields `(0, 0)` as many times as the cap allows, and `Selection.FindText` gives exactly that. With no cap the hit list never ends, so `Selection.Hits` requires `Selection.WellFormed`, which rules that selector out. The consumers stop early, though, and accept it:
- `__nonzero__` and `value` look only at the first hit, `(0, 0)` (`Selection.FirstHit`). So the selection has a match, and its value is the empty text.
- `_execute` on a non-empty document fails at that first hit with IndexError, since the end is below 1 (`Executor.Apply`).

Hits are computed once, over the document as it is before the run. The source instead pulls them lazily from a generator that searches the text being changed; see `Executor.Apply` under "Left out".

## Model

| member | source | states |
|---|---|---|
| Annotations.Shift | waveapi/blip.py:51-56 | a boundary at or before the edit point does not move; name and value never change |
| Annotations.ShiftRoundTrip | waveapi/blip.py:51-56 | growing the text by `inc >= 0` at `where`, then shrinking it by the same amount at `where + inc`, restores every annotation |
| Annotations.InsertionAtBoundaries | waveapi/blip.py:51-56 | text inserted at an annotation's start lands inside it (the end moves, the start does not); text inserted at its end lands outside it |
| Annotations.ShiftStore | waveapi/blip.py:126-129 | every name is kept, and every annotation of every list is shifted in place |
| Annotations.ShiftStoreRoundTrip | waveapi/blip.py:126-129 | the grow-then-shrink round trip restores the whole store |
| Annotations.AddPass | waveapi/blip.py:82-98 | the final range of an add always contains the requested range |
| Annotations.AddPassHull | waveapi/blip.py:84-91 | each bound of the final range is the requested bound or the bound of some stored entry with the same value; the range widens only through a merge |
| Annotations.Add | waveapi/blip.py:78-102 | the added name is present; other names keep their lists; the last entry has the new value and covers `[start, end]`, and each of its bounds is the requested one or that of a stored same-value entry; a new name gets exactly one entry |
| Annotations.AddKeepsApart | waveapi/blip.py:84-86 | every existing entry that does not touch the final range survives unchanged, in its original order |
| Annotations.AddAbsorbsSameValue | waveapi/blip.py:87-91 | every overlapping entry with the same value is covered by the final range, and no surviving same-value entry touches the requested range |
| Annotations.AddPieceShapes | waveapi/blip.py:84-98 | every survivor is an existing entry apart from the requested range, a left piece `(x.start, s)`, or a reversed right piece `(x.end, e)` with `x.end > e`, where `x` is an entry with a different value; so an entry overlapping the request never survives whole, unless it equals one of these pieces |
| Annotations.AddWithoutMerge | waveapi/blip.py:84-98 | with no same-value overlap, the range does not widen; entries apart from it are kept; each other-value overlap leaves its left piece when `x.start < start` and its right piece `(x.end, end)` when `x.end > end`; and nothing else survives: every survivor is an apart entry or one of those pieces |
| Annotations.AddTouchingExample | waveapi/blip.py:84-98 | adding `(n, "b", 4, 6)` next to `(n, "a", 0, 4)` chops the touching entry into its left piece `(0, 4)`, which is the entry itself |
| Annotations.AddMergeExample | waveapi/blip.py:78-102 | adding `(0, 5)` and `(3, 8)` with one value, in either order, leaves the single entry `(0, 8)` |
| Annotations.AddSplitExample | waveapi/blip.py:92-99 | adding `(n, "b", 4, 6)` over `(n, "a", 0, 10)` gives `(0, 4)`, the reversed `(10, 6)`, then `(4, 6)` |
| Annotations.AddDependsOnOrder | waveapi/blip.py:84-91 | the same two entries in two list orders give different results for one add |
| Annotations.EffectiveEnd | waveapi/blip.py:107-108 | a negative end counts back from the document length; any other end is kept |
| Annotations.Clip | waveapi/blip.py:110-120 | an entry apart from the range is kept; one covered by it vanishes; otherwise the left piece `(a.start, start)` is kept exactly when `a.start < start`, and the reversed right piece `(a.end, end)` exactly when `a.end > end` |
| Annotations.ClipAll | waveapi/blip.py:110-120 | every piece that clipping leaves of every stored entry is in the new list |
| Annotations.Remove | waveapi/blip.py:104-124 | an unknown name is a no-op; other names are untouched; a name that is kept has entries and was there before |
| Annotations.RemoveKeepsPieces | waveapi/blip.py:110-124 | after a clear the name is still present and holds every entry apart from the cleared range, the left piece of each touching entry that starts before it, and the reversed right piece of each that ends after it |
| Annotations.RemoveKeepsApart | waveapi/blip.py:110-124 | entries apart from the cleared range survive in order; if the name is dropped, none were apart |
| Annotations.RemovePieceShapes | waveapi/blip.py:110-120 | every survivor is an entry apart from the range or a clipped piece of an entry touching it |
| Annotations.RemoveClearsRange | waveapi/blip.py:110-120 | no well-formed survivor lies inside the cleared range |
| Annotations.RemoveClipExample | waveapi/blip.py:114-120 | clearing `[2, 8]` of `(0, 10)` leaves `(0, 2)` and the reversed `(10, 8)` |
| Document.ElementMoves | waveapi/blip.py:610-617 | an element at `k >= where` ends up at `k + inc`, unchanged |
| Document.ElementStays | waveapi/blip.py:610-617 | an element at `k < where` stays at `k` unless a moved element lands there |
| Document.ElementOrigin | waveapi/blip.py:610-617 | every offset after the shift holds a moved element (from `j - inc >= where`) or an unmoved one (`j < where`) |
| Document.ShiftElementsRoundTrip | waveapi/blip.py:610-617 | growing and then shrinking by the same `inc >= 0` gives back the element table |
| Document.ShiftAsymmetry | waveapi/blip.py:610-618 | at the same offset `where`, an element moves but an annotation starting there does not |
| Document.OriginAll | waveapi/blip.py:610-617 | `ElementOrigin` for all offsets of the shifted table at once |
| Document.Shift | waveapi/blip.py:610-618 | the text is unchanged; every annotation name is kept, with as many entries, and each entry is shifted in place |
| Selection.IndexOf | waveapi/blip.py:263-269 | a found offset is an occurrence at or after the search start |
| Selection.IndexOfFirst | waveapi/blip.py:263-269 | if the pattern occurs at or after `from`, the search finds the first such occurrence |
| Selection.FindTextFrom | waveapi/blip.py:262-269 | every hit is an occurrence of the pattern, `len(pattern)` wide, at or after the resume point; hits are ordered and disjoint; there are at most as many as the cap allows |
| Selection.FindTextFromComplete | waveapi/blip.py:262-269 | below the cap, every occurrence is a hit or starts inside one |
| Selection.FindTextSpec | waveapi/blip.py:262-269 | text search is sound, ordered, disjoint, capped, and complete below the cap |
| Selection.FindTextCapIsPrefix | waveapi/blip.py:264-268 | a capped search returns the first `maxres` hits of the uncapped one |
| Selection.UncappedIgnoresCount | waveapi/blip.py:264-268 | any two searches with `maxres <= 0` from the same offset give the same hits, whatever their caps and running counts |
| Selection.BananaExample | waveapi/blip.py:262-269 | searching "banana" for "a" gives `(1,2)`, `(3,4)`, `(5,6)` |
| Selection.FindText | waveapi/blip.py:260-268 | every hit is an occurrence of the pattern, `len(pattern)` wide; hits are ordered; a positive cap holds; an empty pattern gives exactly `maxres` hits `(0, 0)` |
| Selection.FindElementsIn | waveapi/blip.py:270-276 | each hit is `(k, k + 1)` for a matching element at `k`; hits are ordered over increasing offsets; the cap holds |
| Selection.FindElementsSpec | waveapi/blip.py:270-276 | element search is sound, ordered and capped, and below the cap it yields every matching element |
| Selection.FindElements | waveapi/blip.py:269-276 | each hit is one wide on a matching element; hits are ordered; a positive cap holds |
| Selection.Matches | waveapi/blip.py:229-235 | a match has every restricted property; with no restrictions, matching is having the kind |
| Selection.Hits | waveapi/blip.py:256-276 | the whole document resolves to the one hit `(0, len)` and a range to the one hit `(begin, end)` (waveapi/blip.py:225); hits are ordered; caps hold; element hits start on elements |
| Selection.At | waveapi/blip.py:626-627 | `at(i)` resolves to the one hit `(i, i + 1)` on every document |
| Selection.FirstHit | waveapi/blip.py:426-438 | the first hit is the head of the hit list, and none exactly when that list is empty; any empty-pattern search, capped or not, has first hit `(0, 0)` |
| Selection.HasMatch | waveapi/blip.py:426-430 | the whole document, a range, and every empty-pattern search, capped or not, have a hit |
| Selection.HasMatchSpec | waveapi/blip.py:426-430 | on every selector: a text selection has a hit exactly when the pattern occurs; an element selection exactly when some element matches; the whole document and a range always have one |
| Executor.Normalize | waveapi/blip.py:303-313 | an accepted hit lies in the document (`(0, 0)` only on an empty one); a rejected one is an IndexError |
| Executor.NormalizeAccepts | waveapi/blip.py:303-313 | which raw offsets are accepted, stated on the offsets as given, in both directions |
| Executor.NormalizeInRange | waveapi/blip.py:303-313 | offsets already in range come back unchanged |
| Executor.NormalizeFromEnd | waveapi/blip.py:303-308 | `at(-k)` means the position `len - k` |
| Executor.Adjust | waveapi/blip.py:303-308 | a non-negative start is kept; a negative start counts from the end; an end of 0 becomes the length exactly when the start was negative; a positive end is kept; a negative end counts from the end |
| Executor.Pick | waveapi/blip.py:324-326 | a listed value comes from the list, and hit `k` of the first round takes value `k`; an empty list fails with IndexError; a function value is called as documented |
| Executor.StepTakesValueK | waveapi/blip.py:324-326 | values go round-robin: hit `k` does what the first hit would do with value number `k` modulo the number of values as the only value |
| Executor.StepPeriodic | waveapi/blip.py:324-326 | only the hit number modulo the number of values matters |
| Executor.Step | waveapi/blip.py:302-357 | the corrected step: a hit that fails validation changes nothing (IndexError); the other errors are IndexError for an empty value list and NoElement for an update with no element; annotate, clear and update leave the text alone; annotate and clear leave the elements alone |
| Executor.InsertedAsWritten | waveapi/blip.py:292-294 | as written a function value is wrapped into a list and stored as an element behind a placeholder; a listed value is the one `Pick` takes for that hit, round-robin |
| Executor.StepAsWritten | waveapi/blip.py:292-357 | the step as written: a bad hit is an IndexError; a function value makes annotate fail with TypeError, makes clear a no-op and update an AttributeError, and is stored as an element by the insertions |
| Executor.StepAsWrittenAgrees | waveapi/blip.py:302-357 | on listed values and for every mutation but replace and update, the step as written and the corrected step agree |
| Executor.CallableAsValueExample | waveapi/blip.py:292-323 | replacing the "a" of "banana" by a function returning "X" gives "b nana" with the function stored at 1 as written, and "bXnana" as documented |
| Executor.UpdateAt | waveapi/blip.py:334-341 | fails exactly when no element is at the offset; otherwise keeps the kind, takes the new values for the given properties, keeps the others, and touches no other element, the text or the annotations |
| Executor.UpdateAtAsWritten | waveapi/blip.py:334-339 | the shipped guard never fires, so a missing element fails with AttributeError |
| Executor.UpdateGuardNeverFires | waveapi/blip.py:335-339 | the two versions differ only in the error for a missing element |
| Executor.DeleteText | waveapi/blip.py:314-319 | delete removes exactly `[s, e)`: the length drops by `e - s`, and the text before `s` and from `e` is kept; annotation boundaries after `e` move down |
| Executor.DeleteMovesElement | waveapi/blip.py:315-318 | an element before `s` stays; one at or after `e` moves down by `e - s` |
| Executor.DeleteElementOrigin | waveapi/blip.py:315-318 | no element in `[s, e)` survives a delete |
| Executor.DeleteKeepsValid | waveapi/blip.py:314-319 | element offsets stay inside the text, even when `s > e` |
| Executor.DeleteRange | waveapi/blip.py:314-319 | the text keeps what lies before `s` and from `e`, with the length reduced to match; element offsets stay inside the text |
| Executor.InsertText | waveapi/blip.py:343-353 | the text becomes old prefix, then `t`, then old suffix; the length grows by `len(t)`; annotations after `p` move up |
| Executor.InsertTextMovesElement | waveapi/blip.py:351-352 | elements before `p` stay; elements at or after `p` move up by `len(t)` |
| Executor.InsertTextElementOrigin | waveapi/blip.py:351-352 | no element appears from nowhere |
| Executor.InsertTextKeepsValid | waveapi/blip.py:343-353 | element offsets stay inside the text |
| Executor.InsertElement | waveapi/blip.py:354-357 | a `' '` placeholder is inserted at `p` and the element is stored there |
| Executor.InsertElementMovesElement | waveapi/blip.py:354-357 | whatever was at or after `p`, including an element at `p`, moves up by one |
| Executor.InsertElementOrigin | waveapi/blip.py:354-357 | apart from the new one, every element was there before |
| Executor.InsertElementKeepsValid | waveapi/blip.py:354-357 | element offsets stay inside the text |
| Executor.Splice | waveapi/blip.py:351-357 | the text becomes prefix, inserted characters (one `' '` for an element), suffix; an inserted element is stored at `s`; an insertion at a point keeps element offsets inside the text |
| Executor.InsertTextThenDelete | waveapi/blip.py:314-353 | deleting text just inserted restores the document exactly, including annotations |
| Executor.InsertElementThenDelete | waveapi/blip.py:314-357 | deleting an element just inserted restores the document exactly |
| Executor.ReplaceText | waveapi/blip.py:347-353 | replace swaps `[s, e)` for `t`; the length changes by `len(t) - (e - s)`; with the covered elements dropped, no element is left inside the new text |
| Executor.ReplaceRange | waveapi/blip.py:347-357 | the corrected replace has the same text and annotations as the splice, stores an inserted element at `s`, and keeps element offsets inside the text |
| Executor.ReplaceMovesElement | waveapi/blip.py:354-357 | under the corrected replace, an element outside `[s, e)` stays in place before `e` and moves by `len(value) + s - e` from `e` on |
| Executor.ReplaceElementOrigin | waveapi/blip.py:354-357 | apart from an inserted element at `s`, every element after the corrected replace was before `s` or moved from `e` or later; nothing in `[s, e)` survives |
| Executor.SpliceMovesElement | waveapi/blip.py:354-357 | under the splice as written, an element outside `[s, e)` stays in place before `e` and moves by `len(value) + s - e` from `e` on |
| Executor.SpliceElementOrigin | waveapi/blip.py:354-357 | apart from an inserted element at `s`, every element after the splice as written was before `e` or moved from `e` or later |
| Executor.ReplaceKeepsCoveredElement | waveapi/blip.py:347-352 | the splice as written does not drop an element inside the replaced range |
| Executor.ReplaceCanLeaveElementOutside | waveapi/blip.py:347-353 | so replacing "ab" (with an element at 1) by "x" as written leaves that element past the end of the text, while the corrected step keeps the document valid |
| Executor.StepAnnotate | waveapi/blip.py:329-331 | annotate keeps text, elements and other names, and ends the name's list with an entry of that value covering the hit |
| Executor.StepClear | waveapi/blip.py:332-333 | clear keeps text, elements and other names, and leaves no well-formed entry inside the hit |
| Executor.StepKeepsValid | waveapi/blip.py:314-357 | every mutation of the corrected step keeps element offsets inside the text |
| Executor.RunHits | waveapi/blip.py:302-357 | the corrected run: a run applies either all hits, or stops at the first failure and records it |
| Executor.RunHitsPartial | waveapi/blip.py:302-313 | after a failure, the document is the result of the hits before it |
| Executor.RunKeepsValid | waveapi/blip.py:302-357 | the corrected run keeps element offsets inside the text, failed or not |
| Executor.RunAdvances | waveapi/blip.py:302-326 | one hit either ends the run with its error or leaves the rest of the run to the next document and hit number |
| Executor.Advance | waveapi/blip.py:302-326 | one turn of the corrected loop advances the whole run as `RunHits` does and gives the next value index modulo the number of values |
| Executor.Execute | waveapi/blip.py:292-357 | the corrected loop, with a round-robin index modulo the number of values, computes `RunHits` |
| Executor.Apply | waveapi/blip.py:302-357 | the corrected run on a selection applies at most its hits, all of them exactly when nothing fails, and keeps element offsets inside the text; an uncapped empty-pattern search on a non-empty document fails at its first hit with IndexError and changes nothing |
| Executor.BananaDeletes | waveapi/blip.py:314-319 | deleting at 1, then 3, of "banana" gives "bnana" then "bnaa"; a delete at 5 of "bnaa" is an IndexError |
| Executor.AlternatingReplaceExample | waveapi/blip.py:262-357 | replacing every "a" of "banana" with the values "x" and "y" applies three hits with alternating values and gives "bxnynx" |
| Executor.DeleteEveryMatchExample | waveapi/blip.py:262-319 | with hits resolved up front, deleting every "a" of "banana" applies two hits, leaves "bnaa" and fails with IndexError |
| Executor.DeleteAt | waveapi/blip.py:626-627 | `at(i).delete()` never fails for `-len <= i < len` and removes exactly the character at `i` (counted from the end when negative) |
| Executor.StepInsertPlaces | waveapi/blip.py:343-353 | for a hit `(s, e)`, INSERT puts the text before `s` and INSERT_AFTER puts it at `e`; both grow the text by exactly its length |
| Executor.AppendText | waveapi/blip.py:694-696 | append adds the text at the end, never fails, and moves no element |
| Executor.AppendElement | waveapi/blip.py:694-696 | appending an element adds one placeholder at the end that holds it |
| Executor.AppendRun | waveapi/blip.py:694-696 | the one hit of the whole document takes the insertion after it, putting the value at the end |
| Executor.Append | waveapi/blip.py:694-696 | with the corrected run, append of one value never fails, applies one hit, puts the value's characters after the text, and keeps element offsets inside the text |
| Executor.PySlice | waveapi/blip.py:438 | on offsets inside the text it is the ordinary slice, and no slice is longer than the text |
| Executor.FirstValue | waveapi/blip.py:432-439 | fails, with NoValues, exactly when the selection has no hit |
| Executor.FirstValueOfText | waveapi/blip.py:432-439 | a text search with a match yields the pattern, or (only for one-character patterns) an element; an empty pattern yields the empty text |
| Executor.FirstValueOfElements | waveapi/blip.py:432-439 | an element search with a match yields a matching element |
| Executor.FirstValueAtLastAsWritten | waveapi/blip.py:432-439 | `at(-1).value()` gives empty text on a non-empty document |
| Executor.FirstValueAdjusted | waveapi/blip.py:432-439 | with the hit adjusted as `_execute` adjusts it, fails exactly when there is no hit |
| Executor.FirstValueFromEnd | waveapi/blip.py:432-439 | with the adjustment, `at(-k).value()` is the element or character `k` from the end |
| Executor.FirstValueAdjustedAgrees | waveapi/blip.py:432-439 | on non-negative hits the adjusted and the shipped `value` agree |

## Left out

- Operation records are left out. This covers the operation queue, `DocumentModify`, `set_param` and the `modifyAction` dictionary (waveapi/blip.py:359-387), the `matched` and `updated_elements` lists that feed them, and `reply`, `append_markup` and `insert_inline_blip`. They call an outside collaborator whose code is not part of this model.
- JSON construction and `serialize` are left out. They depend on the element module, which is not part of this model.
- The `Blips` container, the blip accessors and parent/child traversal are left out. They only look up shared dictionaries.
- `proxy_for` is left out: it is aliasing only.
- `__getattr__`, `__radd__` and `__cmp__` are left out. They are Python proxying features.
- UTF-8 `decode` of byte-string values is left out. Text here is already a sequence of characters.
- `__getitem__`, `__setitem__` and `__delitem__` are left out. They only forward to `at`, `range`, `replace` and `delete`.
- Executor.Apply: the hits are resolved once, before the first mutation, whereas the source's generator searches the live text again after each hit (waveapi/blip.py:268). The two differ once a mutation moves text under later hits. Deleting every "a" of "banana" gives "bnaa" and then an IndexError here (`Executor.DeleteEveryMatchExample`). The source searches "bnana" from offset 2 and "bnna" from offset 3, so it ends with "bnn" and no error. The interleaved search is left out because an insertion that contains the pattern makes it run forever.
- Executor.Append: takes one value. The source passes `what` on as given, so a list of values is also accepted. An empty list then fails with IndexError, and a longer one inserts only its first value at the single hit. `Executor.Pick` states both cases for the run.
- Selection.FindElementsIn: hits come in ascending offset order. The source yields them in the element dictionary's iteration order, which follows key hashing and is not promised to be sorted.
- Document.ShiftElements: elements are moved in ascending offset order, so on a collision the one moved later wins. The source moves them in dictionary iteration order, which is not promised to be ascending.
- Object aliasing is left out. One element value inserted at several hits is stored as independent values. In the source it is one shared object, so a later UPDATE_ELEMENT would change every copy.
- Selection.Matches: element classes are matched by kind equality, not `isinstance` with subclasses. A property the element lacks counts as no match; the source's `getattr` would raise instead.
- Executor.StepAsWritten: a value of the wrong shape other than a function cannot be expressed. Examples are a non-pair for ANNOTATE, or a mutation name outside the seven. The source raises on these.
- Selection.Hits: requires `WellFormed`, because an uncapped search for the empty pattern has no finite hit list. `FirstHit`, `HasMatch`, `FirstValue` and `Apply` on a non-empty document do not need it.
- Executor.Apply: an uncapped empty-pattern search on an empty document is not modelled. There, the source visits `(0, 0)` again and again, and it stops only when a step fails, for example the step after one that made the text non-empty. While every step succeeds and leaves the text empty, the run never ends.

## Findings

| source | as written | input that shows it | evidently intended | confidence | as-written member | corrected member |
|---|---|---|---|---|---|---|
| waveapi/blip.py:335-337 | the UPDATE_ELEMENT guard tests the module `element`, which is always truthy, instead of the looked-up `el` | an update at an offset that holds no element: it fails with AttributeError on `el.type` | raise ValueError "No element found" | high, not executed | Executor.UpdateAtAsWritten | Executor.UpdateAt |
| waveapi/blip.py:432-438 | `value` slices the first hit as given, and `text[-1:0]` is empty | `at(-1).value()` on a non-empty document with no element at the end gives "" | the last character, as `_execute` reads `at(-1)` by turning the end of 0 into the length | medium, not executed | Executor.FirstValueAtLastAsWritten | Executor.FirstValueAdjusted |
| waveapi/blip.py:292-294 | every non-list argument, a function included, is wrapped into a list before the hits are visited, so the `callable(what)` branch at lines 321-323 never runs | `replace` of the "a" of "banana" with a function returning "X": the function object is stored as an element behind a `' '`, giving "b nana"; `annotate` with a function fails unpacking it | call the function on each hit, as the docstring at lines 287-288 says | high, not executed | Executor.CallableAsValueExample | Executor.Pick |
| waveapi/blip.py:349-357 | REPLACE shifts and splices without removing the elements inside the replaced range, unlike DELETE at lines 315-317 | replacing all of "ab", with an element at 1, by "x": the element stays at offset 1 of a one-character text | drop the elements of the replaced range, as DELETE does | medium, not executed | Executor.ReplaceCanLeaveElementOutside | Executor.ReplaceRange |

`Executor.Step` is the corrected step that the rest of the model uses: it takes `Executor.UpdateAt`, `Executor.ReplaceRange`, and `Executor.Pick`, which calls a function value. `Executor.StepAsWritten` is the step as the source writes it. The two agree on listed values for every mutation but replace and update (`Executor.StepAsWrittenAgrees`). The two update versions differ only in which error a missing element raises (`Executor.UpdateGuardNeverFires`). With the corrected step every run keeps element offsets inside the text (`Executor.StepKeepsValid`, `Executor.RunKeepsValid`). `Executor.FirstValueAdjusted` is the corrected `value`. It agrees with the shipped one on hits with non-negative offsets (`Executor.FirstValueAdjustedAgrees`).

=== FILE: annotations.dfy ===
/**
  Annotations over a blip's text and the per-name annotation store:
  boundary shifting, and the merge/split engine of `add` and the clip
  engine of `remove`, reproduced with the source's exact comparisons and
  piece constructions.
*/
module Annotations {
  import opened Common

  /** Annotation values are opaque payloads compared by equality. */
  type Value = string

  datatype Annotation = Annotation(name: string, value: Value, start: int, end: int)

  /** name -> the list of annotations stored under that name. */
  type Store = map<string, seq<Annotation>>

  /*** Shifting ***/

  /** A boundary moves by `inc` only when it lies strictly after `where`. */
  function ShiftBoundary(b: int, where: int, inc: int): int
  {
    if b > where then b + inc else b
  }

  function Shift(a: Annotation, where: int, inc: int): (r: Annotation)
    ensures r.name == a.name && r.value == a.value
    ensures a.start <= where ==> r.start == a.start
    ensures a.end <= where ==> r.end == a.end
    ensures a.start > where ==> r.start == a.start + inc
    ensures a.end > where ==> r.end == a.end + inc
  {
    a.(start := ShiftBoundary(a.start, where, inc), end := ShiftBoundary(a.end, where, inc))
  }

  function ShiftList(s: seq<Annotation>, where: int, inc: int): (r: seq<Annotation>)
    ensures |r| == |s|
    ensures forall i :: 0 <= i < |s| ==> r[i] == Shift(s[i], where, inc)
  {
    seq(|s|, i requires 0 <= i < |s| => Shift(s[i], where, inc))
  }

  function ShiftStore(st: Store, where: int, inc: int): (r: Store)
    ensures r.Keys == st.Keys
    ensures forall n :: n in st ==> r[n] == ShiftList(st[n], where, inc)
  {
    map n | n in st :: ShiftList(st[n], where, inc)
  }

  /** Growing the text by `inc >= 0` at `where` and shrinking it again at
      `where + inc` puts every boundary back where it was. */
  lemma ShiftRoundTrip(a: Annotation, where: int, inc: int)
    requires inc >= 0
    ensures Shift(Shift(a, where, inc), where + inc, -inc) == a
  {
  }

  /** Text inserted exactly at an annotation's start falls inside it, and
      text inserted exactly at its end falls outside it. */
  lemma InsertionAtBoundaries(a: Annotation, inc: int)
    requires a.start < a.end && inc >= 0
    ensures Shift(a, a.start, inc) == a.(end := a.end + inc)
    ensures Shift(a, a.end, inc) == a
  {
  }

  /** The round trip of `ShiftRoundTrip`, for a whole store. */
  lemma ShiftStoreRoundTrip(st: Store, where: int, inc: int)
    requires inc >= 0
    ensures ShiftStore(ShiftStore(st, where, inc), where + inc, -inc) == st
  {
    var r := ShiftStore(ShiftStore(st, where, inc), where + inc, -inc);
    forall n | n in st ensures r[n] == st[n] {
      var once := ShiftList(st[n], where, inc);
      forall i | 0 <= i < |st[n]| ensures r[n][i] == st[n][i] {
        ShiftRoundTrip(st[n][i], where, inc);
      }
    }
    forall n ensures n in r.Keys <==> n in st.Keys {}
    assert r.Keys == st.Keys;
  }

  /*** Adding ***/

  /** No overlap test of the source: closed intervals that do not even touch. */
  predicate Apart(a: Annotation, start: int, end: int)
  {
    start > a.end || end < a.start
  }

  /** The state carried through the add loop: the surviving pieces so far and
      the (possibly widened) range of the annotation being added. */
  datatype AddState = AddState(pieces: seq<Annotation>, start: int, end: int)

  /** The left-to-right pass of `add` over the existing annotations of one
      name: entries apart from the current range are kept, overlapping ones
      with the same value widen the range and vanish, overlapping ones with
      another value leave the pieces sticking out on either side. The right
      piece is built with its bounds in the order the source builds them,
      (existing end, current end). */
  function AddPass(existing: seq<Annotation>, value: Value, start: int, end: int): (r: AddState)
    ensures r.start <= start && end <= r.end
    decreases |existing|
  {
    if |existing| == 0 then AddState([], start, end)
    else
      var e := existing[0];
      if Apart(e, start, end) then
        var rest := AddPass(existing[1..], value, start, end);
        rest.(pieces := [e] + rest.pieces)
      else if e.value == value then
        AddPass(existing[1..], value, if e.start < start then e.start else start,
                                      if e.end > end then e.end else end)
      else
        var left := if e.start < start then [Annotation(e.name, e.value, e.start, start)] else [];
        var right := if e.end > end then [Annotation(e.name, e.value, e.end, end)] else [];
        var rest := AddPass(existing[1..], value, start, end);
        rest.(pieces := left + right + rest.pieces)
  }

  /** `Annotations._add_internal`. */
  function Add(st: Store, name: string, value: Value, start: int, end: int): (r: Store)
    ensures r.Keys == st.Keys + {name}
    ensures forall n :: n in st && n != name ==> r[n] == st[n]
    ensures |r[name]| > 0
    ensures var last := r[name][|r[name]| - 1];
      last.name == name && last.value == value && last.start <= start && end <= last.end
    ensures name !in st ==> r[name] == [Annotation(name, value, start, end)]
    ensures var last := r[name][|r[name]| - 1];
      && (last.start == start || (name in st && exists x :: x in st[name] && x.value == value && x.start == last.start))
      && (last.end == end || (name in st && exists x :: x in st[name] && x.value == value && x.end == last.end))
  {
    if name in st then
      AddPassHull(st[name], value, start, end);
      var pass := AddPass(st[name], value, start, end);
      st[name := pass.pieces + [Annotation(name, value, pass.start, pass.end)]]
    else
      st[name := [Annotation(name, value, start, end)]]
  }

  /** The existing entries that lie apart from [start, end], in order. */
  function ApartOnes(s: seq<Annotation>, start: int, end: int): (r: seq<Annotation>)
    ensures forall a :: a in r ==> a in s && Apart(a, start, end)
  {
    if |s| == 0 then []
    else if Apart(s[0], start, end) then [s[0]] + ApartOnes(s[1..], start, end)
    else ApartOnes(s[1..], start, end)
  }

  /** A left piece of `x`: it keeps `x`'s start and ends at some `hi` in [lo0, hi0]. */
  predicate LeftPieceOf(p: Annotation, x: Annotation, lo0: int, hi0: int)
  {
    p == Annotation(x.name, x.value, x.start, p.end) && x.start < p.end && lo0 <= p.end <= hi0
  }

  /** A right piece of `x`: it STARTS at `x`'s end and ends at some point in
      [lo0, hi0] strictly below that, so its bounds are reversed. */
  predicate RightPieceOf(p: Annotation, x: Annotation, lo0: int, hi0: int)
  {
    p == Annotation(x.name, x.value, x.end, p.end) && p.end < x.end && lo0 <= p.end <= hi0
  }

  lemma ApartFromWiderIsApartFromNarrower(a: Annotation, s: int, e: int, s': int, e': int)
    requires s' <= s && e <= e' && Apart(a, s', e')
    ensures Apart(a, s, e)
  {
  }

  /** Every existing entry that lies apart from the FINAL (widened) range is
      kept unchanged, and the kept entries keep their relative order. */
  lemma {:induction false} AddKeepsApart(existing: seq<Annotation>, value: Value, start: int, end: int)
    ensures var r := AddPass(existing, value, start, end);
      IsSubsequence(ApartOnes(existing, r.start, r.end), r.pieces)
    decreases |existing|
  {
    var r := AddPass(existing, value, start, end);
    if |existing| > 0 {
      var e := existing[0];
      if Apart(e, start, end) {
        AddKeepsApart(existing[1..], value, start, end);
        if Apart(e, r.start, r.end) {
          SubsequenceCons(e, ApartOnes(existing[1..], r.start, r.end), AddPass(existing[1..], value, start, end).pieces);
        } else {
          SubsequencePrepend(ApartOnes(existing[1..], r.start, r.end), [e], AddPass(existing[1..], value, start, end).pieces);
        }
      } else if e.value == value {
        var s' := if e.start < start then e.start else start;
        var e' := if e.end > end then e.end else end;
        AddKeepsApart(existing[1..], value, s', e');
        if Apart(e, r.start, r.end) {
          ApartFromWiderIsApartFromNarrower(e, start, end, r.start, r.end);
        }
      } else {
        AddKeepsApart(existing[1..], value, start, end);
        if Apart(e, r.start, r.end) {
          ApartFromWiderIsApartFromNarrower(e, start, end, r.start, r.end);
        }
        var rest := AddPass(existing[1..], value, start, end);
        SubsequencePrepend(ApartOnes(existing[1..], r.start, r.end), r.pieces[..|r.pieces| - |rest.pieces|], rest.pieces);
        assert r.pieces == r.pieces[..|r.pieces| - |rest.pieces|] + rest.pieces;
      }
    }
  }

  /** Generalisation of `AddAbsorbsSameValue`: the pass is running with a
      range [start, end] that already contains the caller's range [s0, e0]. */
  lemma {:induction false} AddPassFacts(existing: seq<Annotation>, value: Value, s0: int, e0: int, start: int, end: int)
    requires start <= s0 && e0 <= end
    ensures var r := AddPass(existing, value, start, end);
      && (forall p :: p in r.pieces && p.value == value ==> p in existing && Apart(p, s0, e0))
      && (forall x :: x in existing && x.value == value && !Apart(x, s0, e0) ==> r.start <= x.start && x.end <= r.end)
    decreases |existing|
  {
    if |existing| > 0 {
      var e := existing[0];
      var tail := existing[1..];
      assert forall x :: x in tail ==> x in existing;
      if Apart(e, start, end) {
        AddPassFacts(tail, value, s0, e0, start, end);
        ApartFromWiderIsApartFromNarrower(e, s0, e0, start, end);
      } else if e.value == value {
        var s' := if e.start < start then e.start else start;
        var e' := if e.end > end then e.end else end;
        AddPassFacts(tail, value, s0, e0, s', e');
      } else {
        AddPassFacts(tail, value, s0, e0, start, end);
        var r := AddPass(existing, value, start, end);
        var rest := AddPass(tail, value, start, end);
        forall p | p in r.pieces && p !in rest.pieces ensures p.value != value {}
      }
    }
  }

  /** Generalisation of `AddPieceShapes`, for a running range [start, end]
      that contains the caller's range [s0, e0]. */
  lemma {:induction false} AddPassPieces(existing: seq<Annotation>, value: Value, s0: int, e0: int, start: int, end: int)
    requires start <= s0 && e0 <= end
    ensures var r := AddPass(existing, value, start, end);
      forall p :: p in r.pieces ==>
        (p in existing && Apart(p, s0, e0)) ||
        exists x :: x in existing && x.value != value &&
          (LeftPieceOf(p, x, r.start, s0) || RightPieceOf(p, x, e0, r.end))
    decreases |existing|
  {
    var r := AddPass(existing, value, start, end);
    if |existing| > 0 {
      var e := existing[0];
      var tail := existing[1..];
      assert forall x :: x in tail ==> x in existing;
      if Apart(e, start, end) {
        AddPassPieces(tail, value, s0, e0, start, end);
        ApartFromWiderIsApartFromNarrower(e, s0, e0, start, end);
      } else if e.value == value {
        var s' := if e.start < start then e.start else start;
        var e' := if e.end > end then e.end else end;
        AddPassPieces(tail, value, s0, e0, s', e');
      } else {
        AddPassPieces(tail, value, s0, e0, start, end);
        var rest := AddPass(tail, value, start, end);
        assert r.start == rest.start && r.end == rest.end;
        forall p | p in r.pieces && p !in rest.pieces
          ensures LeftPieceOf(p, e, r.start, s0) || RightPieceOf(p, e, e0, r.end)
        {
        }
      }
    }
  }

  /** An entry with the added value that overlaps the requested range is
      absorbed: the final range covers it, and no surviving entry with that
      value overlaps the requested range. */
  lemma AddAbsorbsSameValue(existing: seq<Annotation>, value: Value, start: int, end: int)
    ensures var r := AddPass(existing, value, start, end);
      && (forall x :: x in existing && x.value == value && !Apart(x, start, end) ==> r.start <= x.start && x.end <= r.end)
      && (forall p :: p in r.pieces && p.value == value ==> p in existing && Apart(p, start, end))
  {
    AddPassFacts(existing, value, start, end, start, end);
  }

  /** The final range is the hull of the request and the entries it
      absorbed: each of its bounds is the requested one or the bound of an
      existing entry with the added value. */
  lemma {:induction false} AddPassHull(existing: seq<Annotation>, value: Value, start: int, end: int)
    ensures var r := AddPass(existing, value, start, end);
      && (r.start == start || exists x :: x in existing && x.value == value && x.start == r.start)
      && (r.end == end || exists x :: x in existing && x.value == value && x.end == r.end)
    decreases |existing|
  {
    if |existing| > 0 {
      var e := existing[0];
      var tail := existing[1..];
      assert forall x :: x in tail ==> x in existing;
      if Apart(e, start, end) || e.value != value {
        AddPassHull(tail, value, start, end);
      } else {
        var s' := if e.start < start then e.start else start;
        var e' := if e.end > end then e.end else end;
        AddPassHull(tail, value, s', e');
      }
    }
  }

  /** Every surviving entry is an existing entry apart from the requested
      range, or a left piece (x.start, s) with s between the final and the
      requested start, or a right piece (x.end, e) with e between the
      requested and the final end and x.end > e, of an entry x carrying a
      different value. An overlapping entry never survives whole, unless it
      happens to equal one of these pieces. */
  lemma AddPieceShapes(existing: seq<Annotation>, value: Value, start: int, end: int)
    ensures var r := AddPass(existing, value, start, end);
      forall p :: p in r.pieces ==>
        (p in existing && Apart(p, start, end)) ||
        exists x :: x in existing && x.value != value &&
          (LeftPieceOf(p, x, r.start, start) || RightPieceOf(p, x, end, r.end))
  {
    AddPassPieces(existing, value, start, end, start, end);
  }

  /** When no entry with the added value overlaps the requested range, the
      range never widens, every apart entry survives, and every overlapping
      entry with another value leaves exactly its sticking-out pieces: the
      left one (x.start, start) when x.start < start, the right one
      (x.end, end) when x.end > end. Nothing else survives; in particular an
      overlapping entry is kept whole only when it is its own left piece. */
  lemma {:induction false} AddWithoutMerge(existing: seq<Annotation>, value: Value, start: int, end: int)
    requires forall x :: x in existing && x.value == value ==> Apart(x, start, end)
    ensures var r := AddPass(existing, value, start, end);
      && r.start == start && r.end == end
      && (forall x :: x in existing && Apart(x, start, end) ==> x in r.pieces)
      && (forall x :: x in existing && !Apart(x, start, end) && x.start < start ==>
            Annotation(x.name, x.value, x.start, start) in r.pieces)
      && (forall x :: x in existing && !Apart(x, start, end) && x.end > end ==>
            Annotation(x.name, x.value, x.end, end) in r.pieces)
      && (forall p :: p in r.pieces ==>
            (p in existing && Apart(p, start, end)) ||
            exists x :: x in existing && !Apart(x, start, end) &&
              ((p == Annotation(x.name, x.value, x.start, start) && x.start < start) ||
               (p == Annotation(x.name, x.value, x.end, end) && x.end > end)))
    decreases |existing|
  {
    if |existing| > 0 {
      var tail := existing[1..];
      assert forall x :: x in tail ==> x in existing;
      assert forall x :: x in existing ==> x == existing[0] || x in tail;
      AddWithoutMerge(tail, value, start, end);
    }
    AddWithoutMergeSurvivors(existing, value, start, end);
  }

  /** The "nothing else survives" half of `AddWithoutMerge`. */
  lemma {:induction false} AddWithoutMergeSurvivors(existing: seq<Annotation>, value: Value, start: int, end: int)
    requires forall x :: x in existing && x.value == value ==> Apart(x, start, end)
    ensures forall p :: p in AddPass(existing, value, start, end).pieces ==>
      (p in existing && Apart(p, start, end)) ||
      exists x :: x in existing && !Apart(x, start, end) &&
        ((p == Annotation(x.name, x.value, x.start, start) && x.start < start) ||
         (p == Annotation(x.name, x.value, x.end, end) && x.end > end))
    decreases |existing|
  {
    if |existing| > 0 {
      var e := existing[0];
      var tail := existing[1..];
      assert forall x :: x in tail ==> x in existing;
      AddWithoutMergeSurvivors(tail, value, start, end);
      var rest := AddPass(tail, value, start, end);
      if !Apart(e, start, end) {
        var r := AddPass(existing, value, start, end);
        forall p | p in r.pieces && p !in rest.pieces
          ensures (p == Annotation(e.name, e.value, e.start, start) && e.start < start) ||
                  (p == Annotation(e.name, e.value, e.end, end) && e.end > end)
        {
        }
      }
    }
  }

  /** Adding (n, "b", 4, 6) next to (n, "a", 0, 4): the two touch, so the
      old entry is chopped, and its left piece (0, 4) is the entry itself. */
  lemma AddTouchingExample(n: string)
    ensures Add(map[n := [Annotation(n, "a", 0, 4)]], n, "b", 4, 6)[n]
         == [Annotation(n, "a", 0, 4), Annotation(n, "b", 4, 6)]
  {
    var a := [Annotation(n, "a", 0, 4)];
    assert a[1..] == [];
    assert !Apart(a[0], 4, 6);
    assert AddPass(a, "b", 4, 6) == AddState([Annotation(n, "a", 0, 4)], 4, 6);
  }

  /** Adding (n, v, 0, 5) and (n, v, 3, 8) in either order leaves one
      annotation (n, v, 0, 8). */
  lemma AddMergeExample(n: string, v: Value)
    ensures Add(Add(map[], n, v, 0, 5), n, v, 3, 8)[n] == [Annotation(n, v, 0, 8)]
    ensures Add(Add(map[], n, v, 3, 8), n, v, 0, 5)[n] == [Annotation(n, v, 0, 8)]
  {
    var a := [Annotation(n, v, 0, 5)];
    assert a[1..] == [];
    assert AddPass(a, v, 3, 8) == AddState([], 0, 8);
    var b := [Annotation(n, v, 3, 8)];
    assert b[1..] == [];
    assert AddPass(b, v, 0, 5) == AddState([], 0, 8);
  }

  /** Adding (n, "b", 4, 6) over (n, "a", 0, 10) keeps the left piece
      (0, 4), keeps the right piece with reversed bounds (10, 6), and appends
      the new annotation. */
  lemma AddSplitExample(n: string)
    ensures Add(map[n := [Annotation(n, "a", 0, 10)]], n, "b", 4, 6)[n]
         == [Annotation(n, "a", 0, 4), Annotation(n, "a", 10, 6), Annotation(n, "b", 4, 6)]
  {
    var a := [Annotation(n, "a", 0, 10)];
    assert a[1..] == [];
    assert AddPass(a, "b", 4, 6) == AddState([Annotation(n, "a", 0, 4), Annotation(n, "a", 10, 6)], 4, 6);
  }

  /** The result depends on the order of the stored list: an entry apart from
      the requested range is absorbed when an earlier entry has already
      widened the range up to it, and kept when it comes first. */
  lemma AddDependsOnOrder(n: string, v: Value)
    ensures Add(map[n := [Annotation(n, v, 4, 6), Annotation(n, v, 1, 4)]], n, v, 5, 7)[n]
         == [Annotation(n, v, 1, 7)]
    ensures Add(map[n := [Annotation(n, v, 1, 4), Annotation(n, v, 4, 6)]], n, v, 5, 7)[n]
         == [Annotation(n, v, 1, 4), Annotation(n, v, 4, 7)]
  {
    var a := [Annotation(n, v, 4, 6), Annotation(n, v, 1, 4)];
    assert a[1..][1..] == [];
    assert AddPass(a[1..], v, 4, 7) == AddState([], 1, 7);
    assert AddPass(a, v, 5, 7) == AddState([], 1, 7);
    var b := [Annotation(n, v, 1, 4), Annotation(n, v, 4, 6)];
    assert b[1..][1..] == [];
    assert AddPass(b[1..], v, 5, 7) == AddState([], 4, 7);
    assert AddPass(b, v, 5, 7) == AddState([b[0]], 4, 7);
  }

  /*** Removing ***/

  /** The end `remove` works with: a negative end counts from the end of the
      document of length `docLen`. */
  function EffectiveEnd(end: int, docLen: nat): (r: int)
    ensures end >= 0 ==> r == end
    ensures end < 0 ==> r == docLen + end
  {
    if end < 0 then docLen + end else end
  }

  /** What one stored annotation turns into when [start, end] is cleared.
      The right piece is built as (a.end, end), as in the source. */
  function Clip(a: Annotation, name: string, start: int, end: int): (r: seq<Annotation>)
    ensures Apart(a, start, end) ==> r == [a]
    ensures !Apart(a, start, end) && start <= a.start && a.end <= end ==> r == []
    ensures !Apart(a, start, end) ==>
      forall p :: p in r ==>
        || (p == Annotation(name, a.value, a.start, start) && a.start < start)
        || (p == Annotation(name, a.value, a.end, end) && a.end > end)
    ensures !Apart(a, start, end) && a.start < start ==> Annotation(name, a.value, a.start, start) in r
    ensures !Apart(a, start, end) && a.end > end ==> Annotation(name, a.value, a.end, end) in r
  {
    if Apart(a, start, end) then [a]
    else if start < a.start && end > a.end then []
    else
      (if a.start < start then [Annotation(name, a.value, a.start, start)] else [])
      + (if a.end > end then [Annotation(name, a.value, a.end, end)] else [])
  }

  /** The clip of every stored entry, in order: each piece of each clipped
      entry is in the result. */
  function ClipAll(s: seq<Annotation>, name: string, start: int, end: int): (r: seq<Annotation>)
    ensures forall i, p :: 0 <= i < |s| && p in Clip(s[i], name, start, end) ==> p in r
    decreases |s|
  {
    if |s| == 0 then [] else Clip(s[0], name, start, end) + ClipAll(s[1..], name, start, end)
  }

  /** `Annotations._delete_internal`: clears [start, end] of annotation `name`
      in a document of length `docLen`; a name left with no entries is
      dropped from the store. */
  function Remove(st: Store, name: string, start: int, end: int, docLen: nat): (r: Store)
    ensures name !in st ==> r == st
    ensures forall n :: n != name ==> (n in r <==> n in st) && (n in r ==> r[n] == st[n])
    ensures name in r ==> |r[name]| > 0
    ensures name in r ==> name in st
  {
    if name !in st then st
    else
      var kept := ClipAll(st[name], name, start, EffectiveEnd(end, docLen));
      if |kept| > 0 then st[name := kept] else st - {name}
  }

  lemma {:induction false} ClipAllFacts(s: seq<Annotation>, name: string, start: int, end: int)
    ensures IsSubsequence(ApartOnes(s, start, end), ClipAll(s, name, start, end))
    ensures forall p :: p in ClipAll(s, name, start, end) ==>
      exists x :: x in s && p in Clip(x, name, start, end)
    decreases |s|
  {
    if |s| > 0 {
      ClipAllFacts(s[1..], name, start, end);
      var rest := ClipAll(s[1..], name, start, end);
      assert forall x :: x in s[1..] ==> x in s;
      if Apart(s[0], start, end) {
        SubsequenceCons(s[0], ApartOnes(s[1..], start, end), rest);
      } else {
        SubsequencePrepend(ApartOnes(s[1..], start, end), Clip(s[0], name, start, end), rest);
      }
    }
  }

  /** The entries of `name` that lie apart from the cleared range survive
      unchanged and in order; when none survive at all the name is gone. */
  lemma RemoveKeepsApart(st: Store, name: string, start: int, end: int, docLen: nat)
    requires name in st
    ensures var r := Remove(st, name, start, end, docLen);
      var apart := ApartOnes(st[name], start, EffectiveEnd(end, docLen));
      && (name in r ==> IsSubsequence(apart, r[name]))
      && (name !in r ==> apart == [])
  {
    var e := EffectiveEnd(end, docLen);
    ClipAllFacts(st[name], name, start, e);
  }

  /** Every surviving entry is an untouched existing entry apart from the
      cleared range [start, e], or a clipped piece of an entry x touching it:
      (x.start, start) with x.start < start, or (x.end, e) with x.end > e. */
  lemma RemovePieceShapes(st: Store, name: string, start: int, end: int, docLen: nat)
    requires name in Remove(st, name, start, end, docLen)
    ensures var r := Remove(st, name, start, end, docLen);
      var e := EffectiveEnd(end, docLen);
      forall p :: p in r[name] ==>
        || (p in st[name] && Apart(p, start, e))
        || exists x :: x in st[name] && !Apart(x, start, e) &&
             ((p == Annotation(name, x.value, x.start, start) && x.start < start)
              || (p == Annotation(name, x.value, x.end, e) && x.end > e))
  {
    var e := EffectiveEnd(end, docLen);
    var r := Remove(st, name, start, end, docLen);
    assert r[name] == ClipAll(st[name], name, start, e);
    ClipAllFacts(st[name], name, start, e);
  }

  /** No well-formed (start <= end) annotation of `name` lies inside the
      cleared range afterwards. */
  lemma RemoveClearsRange(st: Store, name: string, start: int, end: int, docLen: nat)
    requires name in Remove(st, name, start, end, docLen)
    ensures var r := Remove(st, name, start, end, docLen);
      var e := EffectiveEnd(end, docLen);
      forall p :: p in r[name] && p.start <= p.end ==> !(start <= p.start && p.end <= e)
  {
    var e := EffectiveEnd(end, docLen);
    var r := Remove(st, name, start, end, docLen);
    assert r[name] == ClipAll(st[name], name, start, e);
    ClipAllFacts(st[name], name, start, e);
    forall p: Annotation | p in r[name] && p.start <= p.end ensures !(start <= p.start && p.end <= e) {
      var x :| x in st[name] && p in Clip(x, name, start, e);
    }
  }

  /** Clearing keeps what sticks out: every entry apart from the cleared
      range survives, and every entry touching it leaves its left piece
      (x.start, start) when x.start < start and its right piece (x.end, e)
      when x.end > e; so the name stays whenever any of these exists. */
  lemma RemoveKeepsPieces(st: Store, name: string, start: int, end: int, docLen: nat)
    requires name in st
    ensures var r := Remove(st, name, start, end, docLen);
      var e := EffectiveEnd(end, docLen);
      && (forall x :: x in st[name] && Apart(x, start, e) ==> name in r && x in r[name])
      && (forall x :: x in st[name] && !Apart(x, start, e) && x.start < start ==>
            name in r && Annotation(name, x.value, x.start, start) in r[name])
      && (forall x :: x in st[name] && !Apart(x, start, e) && x.end > e ==>
            name in r && Annotation(name, x.value, x.end, e) in r[name])
  {
    var e := EffectiveEnd(end, docLen);
    forall x | x in st[name] && Apart(x, start, e) ensures PieceKept(st, name, start, end, docLen, x) {
      PieceSurvives(st, name, start, end, docLen, x, x);
    }
    forall x | x in st[name] && !Apart(x, start, e) && x.start < start
      ensures PieceKept(st, name, start, end, docLen, Annotation(name, x.value, x.start, start))
    {
      PieceSurvives(st, name, start, end, docLen, x, Annotation(name, x.value, x.start, start));
    }
    forall x | x in st[name] && !Apart(x, start, e) && x.end > e
      ensures PieceKept(st, name, start, end, docLen, Annotation(name, x.value, x.end, e))
    {
      PieceSurvives(st, name, start, end, docLen, x, Annotation(name, x.value, x.end, e));
    }
  }

  predicate PieceKept(st: Store, name: string, start: int, end: int, docLen: nat, p: Annotation)
  {
    var r := Remove(st, name, start, end, docLen);
    name in r && p in r[name]
  }

  lemma PieceSurvives(st: Store, name: string, start: int, end: int, docLen: nat, x: Annotation, p: Annotation)
    requires name in st && x in st[name] && p in Clip(x, name, start, EffectiveEnd(end, docLen))
    ensures PieceKept(st, name, start, end, docLen, p)
  {
    var e := EffectiveEnd(end, docLen);
    var kept := ClipAll(st[name], name, start, e);
    var i :| 0 <= i < |st[name]| && st[name][i] == x;
    assert p in kept;
  }

  /** Clearing [2, 8] of a single (n, v, 0, 10) leaves (0, 2) and the right
      piece with reversed bounds (10, 8). */
  lemma RemoveClipExample(n: string, v: Value)
    ensures Remove(map[n := [Annotation(n, v, 0, 10)]], n, 2, 8, 10)[n]
         == [Annotation(n, v, 0, 2), Annotation(n, v, 10, 8)]
  {
    var a := [Annotation(n, v, 0, 10)];
    assert a[1..] == [];
    assert ClipAll(a, n, 2, 8) == [Annotation(n, v, 0, 2), Annotation(n, v, 10, 8)];
  }
}

=== FILE: common.dfy ===
/** Failure-carrying results shared by the document model. */
module Common {

  datatype Option<+T> = None | Some(value: T)

  /** The exceptions the document core raises. */
  datatype Error =
    | IndexError        // a hit outside the document, or a value list that is empty
    | NoElement         // UPDATE_ELEMENT on an offset that holds no element
    | NoValues          // first-value extraction on a selection without hits
    | AttributeError    // an attribute looked up on an object that lacks it
    | TypeError         // a value that cannot be unpacked into a (name, value) pair

  datatype Result<+T> = Ok(value: T) | Err(error: Error)

  /** `sub` occurs in `s` in order, possibly with gaps. */
  predicate IsSubsequence<T(==)>(sub: seq<T>, s: seq<T>)
    decreases |s|
  {
    if |sub| == 0 then true
    else if |s| == 0 then false
    else (sub[0] == s[0] && IsSubsequence(sub[1..], s[1..])) || IsSubsequence(sub, s[1..])
  }

  lemma {:induction false} SubsequencePrepend<T>(sub: seq<T>, pre: seq<T>, s: seq<T>)
    requires IsSubsequence(sub, s)
    ensures IsSubsequence(sub, pre + s)
    decreases |pre|
  {
    if |pre| == 0 {
      assert pre + s == s;
    } else if |sub| > 0 {
      assert (pre + s)[1..] == pre[1..] + s;
      SubsequencePrepend(sub, pre[1..], s);
    }
  }

  lemma SubsequenceCons<T>(x: T, sub: seq<T>, s: seq<T>)
    requires IsSubsequence(sub, s)
    ensures IsSubsequence([x] + sub, [x] + s)
  {
    assert ([x] + sub)[1..] == sub;
    assert ([x] + s)[1..] == s;
  }
}

=== FILE: document.dfy ===
/**
  The blip's document: a text buffer, an element table mapping offsets to
  inline elements (each standing on one placeholder character), and the
  annotation store, with the shift that keeps positions in step with edits.
*/
module Document {
  import opened Annotations

  /** An inline element: its kind (gadget, image, form field, ...) and its
      string-valued properties. */
  datatype Element = Element(kind: string, props: map<string, string>)

  datatype Doc = Doc(content: seq<char>, elements: map<int, Element>, annotations: Store)

  /** Every element stands on an offset of the text. */
  predicate Valid(d: Doc)
  {
    forall k :: k in d.elements ==> 0 <= k < |d.content|
  }

  /** Where the element shift sends offset `k`: it moves by `inc` exactly
      when `k >= where`. */
  function Dest(k: int, where: int, inc: int): int
  {
    if k >= where then k + inc else k
  }

  /** The source's loop that rebuilds the element table, visiting `keys` in
      order and writing each element to its new offset; a later write to an
      offset replaces an earlier one. */
  function Rebuild(m: map<int, Element>, keys: seq<int>, where: int, inc: int): map<int, Element>
    requires forall i :: 0 <= i < |keys| ==> keys[i] in m
    decreases |keys|
  {
    if |keys| == 0 then map[]
    else
      var k := keys[|keys| - 1];
      Rebuild(m, keys[..|keys| - 1], where, inc)[Dest(k, where, inc) := m[k]]
  }

  /** Every offset of `r` is the destination of one of `keys`. */
  predicate FromKeys(r: map<int, Element>, keys: seq<int>, where: int, inc: int)
  {
    forall j {:trigger j in r} :: j in r ==> (j - inc in keys && j - inc >= where) || (j in keys && j < where)
  }

  /** Every offset the rebuild writes is the destination of one of the
      visited keys. */
  lemma {:induction false} RebuildOrigin(m: map<int, Element>, keys: seq<int>, where: int, inc: int)
    requires forall i :: 0 <= i < |keys| ==> keys[i] in m
    ensures FromKeys(Rebuild(m, keys, where, inc), keys, where, inc)
    decreases |keys|
  {
    if |keys| > 0 {
      var k := keys[|keys| - 1];
      var front := keys[..|keys| - 1];
      assert keys == front + [k];
      assert forall i :: 0 <= i < |front| ==> front[i] == keys[i];
      RebuildOrigin(m, front, where, inc);
      LandOne(keys, front, k, Rebuild(m, front, where, inc), m[k], where, inc);
    }
  }

  /** Writing the element of the last key onto a table built from the
      keys before it keeps every offset traceable to a key. */
  lemma LandOne(keys: seq<int>, front: seq<int>, k: int, rest: map<int, Element>, el: Element, where: int, inc: int)
    requires keys == front + [k]
    requires FromKeys(rest, front, where, inc)
    ensures FromKeys(rest[Dest(k, where, inc) := el], keys, where, inc)
  {
    var r := rest[Dest(k, where, inc) := el];
    forall j | j in r ensures (j - inc in keys && j - inc >= where) || (j in keys && j < where) {
      if j == Dest(k, where, inc) {
        assert k in keys;
      } else {
        assert j in rest;
        assert forall x :: x in front ==> x in keys;
      }
    }
  }

  /** An offset traceable to a key is traceable to the table the keys
      come from. */
  lemma OriginInTable(m: map<int, Element>, keys: seq<int>, r: map<int, Element>, where: int, inc: int)
    requires forall i :: 0 <= i < |keys| ==> keys[i] in m
    requires FromKeys(r, keys, where, inc)
    ensures forall j {:trigger j in r} :: j in r ==> (j - inc in m && j - inc >= where) || (j in m && j < where)
  {
    forall j | j in r ensures (j - inc in m && j - inc >= where) || (j in m && j < where) {
      if j - inc in keys && j - inc >= where {
        var i :| 0 <= i < |keys| && keys[i] == j - inc;
      } else {
        var i :| 0 <= i < |keys| && keys[i] == j;
      }
    }
  }

  /** The element half of `Blip._shift`, visiting offsets in ascending
      order; two elements sent to one offset leave only the later one.
      Where each element goes is stated by `ElementMoves`, `ElementStays`
      and `ElementOrigin`. */
  function ShiftElements(m: map<int, Element>, where: int, inc: int): map<int, Element>
  {
    var keys := Ascending(m.Keys);
    assert forall i :: 0 <= i < |keys| ==> keys[i] in m.Keys;
    Rebuild(m, keys, where, inc)
  }

  predicate StrictlyIncreasing(keys: seq<int>)
  {
    forall i, j :: 0 <= i < j < |keys| ==> keys[i] < keys[j]
  }

  lemma {:induction false} RebuildMoves(m: map<int, Element>, keys: seq<int>, where: int, inc: int, k: int)
    requires forall i :: 0 <= i < |keys| ==> keys[i] in m
    requires StrictlyIncreasing(keys) && k in keys && k >= where
    ensures k + inc in Rebuild(m, keys, where, inc)
    ensures Rebuild(m, keys, where, inc)[k + inc] == m[k]
    decreases |keys|
  {
    var last := keys[|keys| - 1];
    if last != k {
      var front := keys[..|keys| - 1];
      assert k in front by {
        var i :| 0 <= i < |keys| && keys[i] == k;
        assert i < |keys| - 1 && front[i] == k;
      }
      assert k < last by {
        var i :| 0 <= i < |front| && front[i] == k;
      }
      RebuildMoves(m, front, where, inc, k);
    }
  }

  lemma {:induction false} RebuildKeeps(m: map<int, Element>, keys: seq<int>, where: int, inc: int, k: int)
    requires forall i :: 0 <= i < |keys| ==> keys[i] in m
    requires k in keys && k < where
    requires !(k - inc in keys && k - inc >= where)
    ensures k in Rebuild(m, keys, where, inc)
    ensures Rebuild(m, keys, where, inc)[k] == m[k]
    decreases |keys|
  {
    var last := keys[|keys| - 1];
    if last != k {
      var front := keys[..|keys| - 1];
      assert k in front by {
        var i :| 0 <= i < |keys| && keys[i] == k;
        assert i < |keys| - 1 && front[i] == k;
      }
      assert !(k - inc in front && k - inc >= where) by {
        if k - inc in front {
          var i :| 0 <= i < |front| && front[i] == k - inc;
          assert keys[i] == k - inc;
        }
      }
      RebuildKeeps(m, front, where, inc, k);
    }
  }

  /** An element at `k >= where` is found at `k + inc` after the shift. */
  lemma ElementMoves(m: map<int, Element>, where: int, inc: int, k: int)
    requires k in m && k >= where
    ensures k + inc in ShiftElements(m, where, inc)
    ensures ShiftElements(m, where, inc)[k + inc] == m[k]
  {
    var i := AscendingIndex(m.Keys, k);
    RebuildMoves(m, Ascending(m.Keys), where, inc, k);
  }

  /** An element before `where` stays, unless a moved element lands on it. */
  lemma ElementStays(m: map<int, Element>, where: int, inc: int, k: int)
    requires k in m && k < where && !(k - inc in m && k - inc >= where)
    ensures k in ShiftElements(m, where, inc)
    ensures ShiftElements(m, where, inc)[k] == m[k]
  {
    var i := AscendingIndex(m.Keys, k);
    RebuildKeeps(m, Ascending(m.Keys), where, inc, k);
  }

  /** Every offset of the shifted table is a moved or a staying element. */
  lemma ElementOrigin(m: map<int, Element>, where: int, inc: int, j: int)
    requires j in ShiftElements(m, where, inc)
    ensures (j - inc in m && j - inc >= where) || (j in m && j < where)
  {
    var keys := Ascending(m.Keys);
    assert forall i :: 0 <= i < |keys| ==> keys[i] in m.Keys;
    RebuildOrigin(m, keys, where, inc);
    OriginInTable(m, keys, Rebuild(m, keys, where, inc), where, inc);
  }

  /** `ElementOrigin` for every offset of the shifted table `r` at once. */
  lemma OriginAll(m: map<int, Element>, where: int, inc: int, r: map<int, Element>)
    requires r == ShiftElements(m, where, inc)
    ensures forall j {:trigger j in r} :: j in r ==>
      (j - inc in m && j - inc >= where) || (j in m && j < where)
  {
    forall j {:trigger j in r} | j in r ensures (j - inc in m && j - inc >= where) || (j in m && j < where) {
      ElementOrigin(m, where, inc, j);
    }
  }

  /** `Blip._shift`: elements use `>=`, annotation boundaries use `>`. The
      text is untouched, and every annotation name keeps its list, each
      entry shifted in place; the elements are those of `ShiftElements`. */
  function Shift(d: Doc, where: int, inc: int): (r: Doc)
    ensures r.content == d.content
    ensures r.annotations.Keys == d.annotations.Keys
    ensures forall n :: n in d.annotations ==> |r.annotations[n]| == |d.annotations[n]|
    ensures forall n, i :: n in d.annotations && 0 <= i < |d.annotations[n]| ==>
      r.annotations[n][i] == Annotations.Shift(d.annotations[n][i], where, inc)
  {
    Doc(d.content, ShiftElements(d.elements, where, inc), ShiftStore(d.annotations, where, inc))
  }

  lemma SameTable(a: map<int, Element>, b: map<int, Element>)
    requires forall k :: k in a ==> k in b && b[k] == a[k]
    requires forall j :: j in b ==> j in a
    ensures a == b
  {
    forall k ensures k in a.Keys <==> k in b.Keys {}
    assert a.Keys == b.Keys;
    assert forall k :: k in a ==> a[k] == b[k];
  }

  lemma RoundTripKeeps(m: map<int, Element>, where: int, inc: int, k: int)
    requires inc >= 0 && k in m
    ensures k in ShiftElements(ShiftElements(m, where, inc), where + inc, -inc)
    ensures ShiftElements(ShiftElements(m, where, inc), where + inc, -inc)[k] == m[k]
  {
    var m1 := ShiftElements(m, where, inc);
    if k >= where {
      ElementMoves(m, where, inc, k);
      ElementMoves(m1, where + inc, -inc, k + inc);
    } else {
      ElementStays(m, where, inc, k);
      if k + inc in m1 && k + inc >= where + inc {
        ElementOrigin(m, where, inc, k + inc);
      }
      ElementStays(m1, where + inc, -inc, k);
    }
  }

  lemma RoundTripAdds(m: map<int, Element>, where: int, inc: int, j: int)
    requires inc >= 0 && j in ShiftElements(ShiftElements(m, where, inc), where + inc, -inc)
    ensures j in m
  {
    var m1 := ShiftElements(m, where, inc);
    ElementOrigin(m1, where + inc, -inc, j);
    if j + inc in m1 && j + inc >= where + inc {
      ElementOrigin(m, where, inc, j + inc);
    } else {
      ElementOrigin(m, where, inc, j);
    }
  }

  /** Growing by `inc >= 0` at `where` and shrinking back at `where + inc`
      restores the element table: with a non-negative increment no moved
      element can land on one that stayed. */
  lemma ShiftElementsRoundTrip(m: map<int, Element>, where: int, inc: int)
    requires inc >= 0
    ensures ShiftElements(ShiftElements(m, where, inc), where + inc, -inc) == m
  {
    var m2 := ShiftElements(ShiftElements(m, where, inc), where + inc, -inc);
    forall k | k in m ensures k in m2 && m2[k] == m[k] {
      RoundTripKeeps(m, where, inc, k);
    }
    forall j | j in m2 ensures j in m {
      RoundTripAdds(m, where, inc, j);
    }
    SameTable(m, m2);
  }

  /** An element exactly at the edit point is pushed forward, while an
      annotation boundary exactly there stays put. */
  lemma ShiftAsymmetry(d: Doc, where: int, inc: int, name: string, i: int)
    requires where in d.elements
    requires name in d.annotations && 0 <= i < |d.annotations[name]|
    requires d.annotations[name][i].start == where
    ensures where + inc in Shift(d, where, inc).elements
    ensures Shift(d, where, inc).elements[where + inc] == d.elements[where]
    ensures Shift(d, where, inc).annotations[name][i].start == where
  {
    ElementMoves(d.elements, where, inc, where);
  }

  /** Offsets that hold an element, in ascending order. */
  predicate IsLeast(k: int, s: set<int>)
  {
    k in s && forall x :: x in s ==> k <= x
  }

  lemma {:induction false} HasLeast(s: set<int>)
    requires s != {}
    ensures exists k :: IsLeast(k, s)
    decreases |s|
  {
    if forall y :: y !in s { assert false; }
    var y :| y in s;
    var rest := s - {y};
    if rest == {} {
      assert s == {y};
      assert IsLeast(y, s);
    } else {
      HasLeast(rest);
      var m :| IsLeast(m, rest);
      var least := if y < m then y else m;
      forall x | x in s ensures least <= x {
        if x != y { assert x in rest; }
      }
      assert IsLeast(least, s);
    }
  }

  function Ascending(s: set<int>): (r: seq<int>)
    ensures forall i :: 0 <= i < |r| ==> r[i] in s
    ensures StrictlyIncreasing(r)
    decreases |s|
  {
    if s == {} then []
    else
      HasLeast(s);
      var k :| IsLeast(k, s);
      [k] + Ascending(s - {k})
  }

  /** Every member of `s` has its place in `Ascending(s)`. */
  lemma {:induction false} AscendingIndex(s: set<int>, k: int) returns (i: nat)
    requires k in s
    ensures i < |Ascending(s)| && Ascending(s)[i] == k
    decreases |s|
  {
    HasLeast(s);
    var m :| IsLeast(m, s);
    assert Ascending(s) == [m] + Ascending(s - {m});
    if k == m {
      i := 0;
    } else {
      var j := AscendingIndex(s - {m}, k);
      i := j + 1;
    }
  }
}

=== FILE: executor.dfy ===
/**
  The mutation step of a selection: for each hit, normalise the offsets,
  validate them, and delete, insert, replace, annotate, clear or update at
  that range. Hits are applied one after another to the evolving document,
  and an error stops the run with the earlier hits already applied.
*/
module Executor {
  import opened Common
  import opened Document
  import opened Selection
  import Annotations

  /*** Range normalisation and validation ***/

  /** The ranges a step accepts: `(0, 0)` on an empty document, otherwise a
      start inside the text and an end in `1..len`. Nothing asks for
      `start <= end`. */
  predicate InDocument(len: nat, s: int, e: int)
  {
    if len == 0 then s == 0 && e == 0 else 0 <= s < len && 1 <= e <= len
  }

  /** A negative start counts from the end, and then an end of 0 means "the
      end" (so that `at(-1)` is the last position); a negative end counts
      from the end as well. */
  function Adjust(len: nat, start: int, end: int): (r: (int, int))
    ensures start >= 0 && end >= 0 ==> r == (start, end)
    ensures start < 0 ==> r.0 == start + len
    ensures start < 0 && end == 0 ==> r.1 == len
    ensures end < 0 ==> r.1 == end + len
    ensures start >= 0 ==> r.0 == start
    ensures end > 0 || (start >= 0 && end == 0) ==> r.1 == end
  {
    var e0 := if start < 0 && end == 0 then end + len else end;
    (if start < 0 then start + len else start, if e0 < 0 then e0 + len else e0)
  }

  /** `Adjust`, then reject what lies outside the document. */
  function Normalize(len: nat, start: int, end: int): (r: Result<(int, int)>)
    ensures r.Ok? ==> InDocument(len, r.value.0, r.value.1)
    ensures r.Err? ==> r.error == IndexError
  {
    var (s, e) := Adjust(len, start, end);
    if len == 0 then
      (if s != 0 || e != 0 then Err(IndexError) else Ok((s, e)))
    else if s < 0 || e < 1 || s >= len || e > len then Err(IndexError)
    else Ok((s, e))
  }

  /** Which raw offsets are accepted, stated on the offsets as given. */
  lemma NormalizeAccepts(len: nat, start: int, end: int)
    ensures Normalize(len, start, end).Ok? <==>
      (if len == 0 then start == 0 && end == 0
       else (0 <= start + len && start < len &&
             ((start < 0 && end == 0) || (1 <= end + len && end <= -1) || 1 <= end <= len)))
  {
  }

  /** Offsets already inside the document are left as they are. */
  lemma NormalizeInRange(len: nat, start: int, end: int)
    requires 0 <= start < len && 1 <= end <= len
    ensures Normalize(len, start, end) == Ok((start, end))
  {
  }

  /** `at(-k)` is the position `k` from the end. */
  lemma NormalizeFromEnd(len: nat, k: int)
    requires 1 <= k <= len
    ensures Normalize(len, -k, -k + 1) == Ok((len - k, len - k + 1))
  {
  }

  /*** Values and mutations ***/

  /** Text to splice in, or an element that takes one placeholder character. */
  datatype Insertable = Text(text: seq<char>) | Placeholder(element: Element)

  /** Where the value for each hit comes from: a list used round-robin (a
      single value is a list of one), or, as `_execute`'s documentation
      describes it, a function of the current text and the normalised hit.
      As written, the source wraps a function into a list of one before it
      ever tests for one, so the function form only takes effect in the
      corrected `Step`; `StepAsWritten` shows what the source does. */
  datatype Values<T> =
    | Listed(items: seq<T>)
    | Computed(f: (seq<char>, int, int) -> T)

  datatype Mutation =
    | Delete
    | Insert(what: Values<Insertable>)
    | InsertAfter(what: Values<Insertable>)
    | Replace(what: Values<Insertable>)
    | Annotate(pairs: Values<(string, Annotations.Value)>)
    | ClearAnnotation(names: Values<string>)
    | UpdateElement(updates: Values<map<string, string>>)

  /** The value for the hit numbered `k` (from 0): the list is cycled, and an
      empty list fails as soon as a value is needed. */
  function Pick<T>(vs: Values<T>, content: seq<char>, s: int, e: int, k: nat): (r: Result<T>)
    ensures vs.Listed? ==> (r.Err? <==> |vs.items| == 0)
    ensures r.Err? ==> r.error == IndexError
    ensures vs.Listed? && r.Ok? ==> r.value in vs.items
    ensures vs.Listed? && k < |vs.items| ==> r == Ok(vs.items[k])
    ensures vs.Computed? ==> r == Ok(vs.f(content, s, e))
  {
    match vs
    case Listed(items) => if |items| == 0 then Err(IndexError) else Ok(items[k % |items|])
    case Computed(f) => Ok(f(content, s, e))
  }

  /** How many hits it takes for the values to come round again. */
  function Period(m: Mutation): (n: nat)
    ensures n >= 1
  {
    match m
    case Insert(Listed(items)) => if |items| == 0 then 1 else |items|
    case InsertAfter(Listed(items)) => if |items| == 0 then 1 else |items|
    case Replace(Listed(items)) => if |items| == 0 then 1 else |items|
    case Annotate(Listed(items)) => if |items| == 0 then 1 else |items|
    case ClearAnnotation(Listed(items)) => if |items| == 0 then 1 else |items|
    case UpdateElement(Listed(items)) => if |items| == 0 then 1 else |items|
    case _ => 1
  }

  /*** The single-hit operations ***/

  /** The element table with the offsets in `[s, e)` removed. */
  function Without(m: map<int, Element>, s: int, e: int): (r: map<int, Element>)
    ensures forall k :: k in r <==> k in m && !(s <= k < e)
    ensures forall k :: k in r ==> r[k] == m[k]
  {
    map k | k in m && !(s <= k < e) :: m[k]
  }

  /** DELETE: drop the elements in `[s, e)`, move everything from `e` on
      down to `s`, and cut the text out. The text keeps what lies before `s`
      and from `e` on, and element offsets stay inside the text. */
  function DeleteRange(d: Doc, s: int, e: int): (r: Doc)
    requires 0 <= s <= |d.content| && 0 <= e <= |d.content|
    ensures |r.content| == s + (|d.content| - e)
    ensures r.content[..s] == d.content[..s] && r.content[s..] == d.content[e..]
    ensures Valid(d) ==> Valid(r)
  {
    OriginAll(Without(d.elements, s, e), e, s - e, ShiftElements(Without(d.elements, s, e), e, s - e));
    var shifted := Document.Shift(d.(elements := Without(d.elements, s, e)), e, s - e);
    shifted.(content := d.content[..s] + d.content[e..])
  }

  /** The characters an insertable takes in the text. */
  function Chars(v: Insertable): (r: seq<char>)
    ensures v.Placeholder? ==> |r| == 1
  {
    match v
    case Text(t) => t
    case Placeholder(_) => [' ']
  }

  /** INSERT, INSERT_AFTER and REPLACE as the source writes them: put `v`
      in place of `[s, e)`. The elements inside `[s, e)` are not removed.
      The text keeps what lies before `s` and from `e` on around the new
      characters, an inserted element stands on its placeholder, and an
      insertion (`s == e`) keeps element offsets inside the text. */
  function Splice(d: Doc, s: int, e: int, v: Insertable): (r: Doc)
    requires 0 <= s <= |d.content| && 0 <= e <= |d.content|
    ensures |r.content| == s + |Chars(v)| + (|d.content| - e)
    ensures r.content[..s] == d.content[..s]
    ensures r.content[s..s + |Chars(v)|] == Chars(v)
    ensures r.content[s + |Chars(v)|..] == d.content[e..]
    ensures v.Placeholder? ==> s in r.elements && r.elements[s] == v.element
    ensures Valid(d) && s == e ==> Valid(r)
  {
    match v
    case Text(t) =>
      OriginAll(d.elements, e, |t| + s - e, ShiftElements(d.elements, e, |t| + s - e));
      var shifted := Document.Shift(d, e, |t| + s - e);
      shifted.(content := d.content[..s] + t + d.content[e..])
    case Placeholder(el) =>
      OriginAll(d.elements, e, 1 + s - e, ShiftElements(d.elements, e, 1 + s - e));
      var shifted := Document.Shift(d, e, 1 + s - e);
      shifted.(content := d.content[..s] + [' '] + d.content[e..], elements := shifted.elements[s := el])
  }

  /** REPLACE with the elements of `[s, e)` dropped first, as DELETE drops
      them: the replaced range takes its elements with it, so element
      offsets stay inside the text. */
  function ReplaceRange(d: Doc, s: int, e: int, v: Insertable): (r: Doc)
    requires 0 <= s <= |d.content| && 0 <= e <= |d.content|
    ensures r.content == Splice(d, s, e, v).content && r.annotations == Splice(d, s, e, v).annotations
    ensures v.Placeholder? ==> s in r.elements && r.elements[s] == v.element
    ensures Valid(d) ==> Valid(r)
  {
    var kept := d.(elements := Without(d.elements, s, e));
    match v
    case Text(t) =>
      OriginAll(kept.elements, e, |t| + s - e, ShiftElements(kept.elements, e, |t| + s - e));
      Splice(kept, s, e, v)
    case Placeholder(_) =>
      OriginAll(kept.elements, e, 1 + s - e, ShiftElements(kept.elements, e, 1 + s - e));
      Splice(kept, s, e, v)
  }

  /** UPDATE_ELEMENT: merge new property values into the element at `s`;
      fails with `NoElement` when there is none. */
  function UpdateAt(d: Doc, s: int, upd: map<string, string>): (r: Result<Doc>)
    ensures r.Err? <==> s !in d.elements
    ensures r.Err? ==> r.error == NoElement
    ensures r.Ok? ==> r.value.content == d.content && r.value.annotations == d.annotations
    ensures r.Ok? ==> r.value.elements.Keys == d.elements.Keys
    ensures r.Ok? ==> forall k :: k in d.elements && k != s ==> r.value.elements[k] == d.elements[k]
    ensures r.Ok? ==> r.value.elements[s].kind == d.elements[s].kind
    ensures r.Ok? ==> forall p :: p in upd ==> p in r.value.elements[s].props && r.value.elements[s].props[p] == upd[p]
    ensures r.Ok? ==> forall p :: p in d.elements[s].props && p !in upd ==>
      p in r.value.elements[s].props && r.value.elements[s].props[p] == d.elements[s].props[p]
  {
    if s !in d.elements then Err(NoElement)
    else
      var el := d.elements[s];
      Ok(d.(elements := d.elements[s := Element(el.kind, el.props + upd)]))
  }

  /** UPDATE_ELEMENT as the source writes it: its guard tests the imported
      module `element` rather than the looked-up `el`, a module is always
      truthy, so the guard never fires and a missing element fails later,
      when its `type` is read. */
  function UpdateAtAsWritten(d: Doc, s: int, upd: map<string, string>): (r: Result<Doc>)
    ensures r.Err? <==> s !in d.elements
    ensures r.Err? ==> r.error == AttributeError
  {
    if s !in d.elements then Err(AttributeError)
    else
      var el := d.elements[s];
      Ok(d.(elements := d.elements[s := Element(el.kind, el.props + upd)]))
  }

  /** The two versions differ only in the error a missing element raises. */
  lemma UpdateGuardNeverFires(d: Doc, s: int, upd: map<string, string>)
    ensures s !in d.elements ==>
      UpdateAtAsWritten(d, s, upd) == Err(AttributeError) && UpdateAt(d, s, upd) == Err(NoElement)
    ensures s in d.elements ==> UpdateAtAsWritten(d, s, upd) == UpdateAt(d, s, upd)
  {
  }

  /** One hit of `_execute`: normalise and validate the hit, take the value
      for hit number `k`, then apply the mutation. This is the corrected
      step: a function value is called as documented, REPLACE drops the
      elements of the replaced range, and a missing element fails
      UPDATE_ELEMENT with `NoElement`. */
  function Step(d: Doc, m: Mutation, start: int, end: int, k: nat): (r: Result<Doc>)
    ensures Normalize(|d.content|, start, end).Err? ==> r == Err(IndexError)
    ensures r.Err? ==> r.error == IndexError || (m.UpdateElement? && r.error == NoElement)
    ensures r.Ok? && (m.Annotate? || m.ClearAnnotation? || m.UpdateElement?) ==> r.value.content == d.content
    ensures r.Ok? && (m.Annotate? || m.ClearAnnotation?) ==> r.value.elements == d.elements
  {
    match Normalize(|d.content|, start, end)
    case Err(x) => Err(x)
    case Ok((s, e)) =>
      match m
      case Delete => Ok(DeleteRange(d, s, e))
      case Insert(vs) =>
        (match Pick(vs, d.content, s, e, k)
         case Err(x) => Err(x)
         case Ok(v) => Ok(Splice(d, s, s, v)))
      case InsertAfter(vs) =>
        (match Pick(vs, d.content, s, e, k)
         case Err(x) => Err(x)
         case Ok(v) => Ok(Splice(d, e, e, v)))
      case Replace(vs) =>
        (match Pick(vs, d.content, s, e, k)
         case Err(x) => Err(x)
         case Ok(v) => Ok(ReplaceRange(d, s, e, v)))
      case Annotate(vs) =>
        (match Pick(vs, d.content, s, e, k)
         case Err(x) => Err(x)
         case Ok(pair) => Ok(d.(annotations := Annotations.Add(d.annotations, pair.0, pair.1, s, e))))
      case ClearAnnotation(vs) =>
        (match Pick(vs, d.content, s, e, k)
         case Err(x) => Err(x)
         case Ok(name) => Ok(d.(annotations := Annotations.Remove(d.annotations, name, s, e, |d.content|))))
      case UpdateElement(vs) =>
        (match Pick(vs, d.content, s, e, k)
         case Err(x) => Err(x)
         case Ok(upd) => UpdateAt(d, s, upd))
  }

  /*** The step as the source writes it ***/

  /** The source's element table holds any object; a function stored in it
      is represented by an element of this kind with no properties. */
  const FunctionObject: Element := Element("function", map[])

  /** The mutation carries a function rather than a list of values. */
  predicate Computes(m: Mutation)
  {
    match m
    case Delete => false
    case Insert(vs) => vs.Computed?
    case InsertAfter(vs) => vs.Computed?
    case Replace(vs) => vs.Computed?
    case Annotate(vs) => vs.Computed?
    case ClearAnnotation(vs) => vs.Computed?
    case UpdateElement(vs) => vs.Computed?
  }

  /** The value an insertion uses as written: a function, wrapped into a
      list of one, is itself the value, and since it is not a string it is
      stored as an element behind a placeholder. */
  function InsertedAsWritten(vs: Values<Insertable>, k: nat): (r: Result<Insertable>)
    ensures vs.Computed? ==> r == Ok(Placeholder(FunctionObject))
    ensures vs.Listed? ==> (r.Err? <==> |vs.items| == 0) && (r.Ok? ==> r.value in vs.items)
    ensures vs.Listed? ==> forall c, s, e :: r == Pick(vs, c, s, e, k)
  {
    match vs
    case Listed(items) => if |items| == 0 then Err(IndexError) else Ok(items[k % |items|])
    case Computed(_) => Ok(Placeholder(FunctionObject))
  }

  /** One hit of `_execute` exactly as the source writes it. Any argument
      that is not a list, a function included, is wrapped into a list of
      one before the hits are visited, so the branch that calls a function
      never runs and the function is the value of every hit: inserted, it
      is stored behind a placeholder; as an annotate pair it cannot be
      unpacked (`TypeError`); as a name to clear it is never a key of the
      store, so nothing changes; as property updates it has no `items`
      (`AttributeError`). REPLACE splices without dropping the elements of
      the replaced range, and UPDATE_ELEMENT's guard never fires. */
  function StepAsWritten(d: Doc, m: Mutation, start: int, end: int, k: nat): (r: Result<Doc>)
    ensures Normalize(|d.content|, start, end).Err? ==> r == Err(IndexError)
    ensures Normalize(|d.content|, start, end).Ok? && m.Annotate? && m.pairs.Computed? ==> r == Err(TypeError)
    ensures Normalize(|d.content|, start, end).Ok? && m.ClearAnnotation? && m.names.Computed? ==> r == Ok(d)
    ensures Normalize(|d.content|, start, end).Ok? && m.UpdateElement? && m.updates.Computed? ==> r == Err(AttributeError)
    ensures r.Ok? && (m.Insert? || m.InsertAfter? || m.Replace?) && m.what.Computed? ==>
      FunctionObject in r.value.elements.Values
  {
    match Normalize(|d.content|, start, end)
    case Err(x) => Err(x)
    case Ok((s, e)) =>
      match m
      case Delete => Ok(DeleteRange(d, s, e))
      case Insert(vs) =>
        (match InsertedAsWritten(vs, k)
         case Err(x) => Err(x)
         case Ok(v) => Ok(Splice(d, s, s, v)))
      case InsertAfter(vs) =>
        (match InsertedAsWritten(vs, k)
         case Err(x) => Err(x)
         case Ok(v) => Ok(Splice(d, e, e, v)))
      case Replace(vs) =>
        (match InsertedAsWritten(vs, k)
         case Err(x) => Err(x)
         case Ok(v) => Ok(Splice(d, s, e, v)))
      case Annotate(vs) =>
        if vs.Computed? then Err(TypeError)
        else
          (match Pick(vs, d.content, s, e, k)
           case Err(x) => Err(x)
           case Ok(pair) => Ok(d.(annotations := Annotations.Add(d.annotations, pair.0, pair.1, s, e))))
      case ClearAnnotation(vs) =>
        if vs.Computed? then Ok(d)
        else
          (match Pick(vs, d.content, s, e, k)
           case Err(x) => Err(x)
           case Ok(name) => Ok(d.(annotations := Annotations.Remove(d.annotations, name, s, e, |d.content|))))
      case UpdateElement(vs) =>
        if vs.Computed? then Err(AttributeError)
        else
          (match Pick(vs, d.content, s, e, k)
           case Err(x) => Err(x)
           case Ok(upd) => UpdateAtAsWritten(d, s, upd))
  }

  /** Away from the three defects the two steps agree: on listed values,
      for every mutation but REPLACE and UPDATE_ELEMENT. */
  lemma StepAsWrittenAgrees(d: Doc, m: Mutation, start: int, end: int, k: nat)
    requires !Computes(m) && !m.Replace? && !m.UpdateElement?
    ensures StepAsWritten(d, m, start, end, k) == Step(d, m, start, end, k)
  {
  }

  /** Replacing the "a" of "banana" at (1, 2) with a function that returns
      "X": as written the function object is stored behind a placeholder,
      giving "b nana"; as documented it is called, giving "bXnana". */
  lemma CallableAsValueExample()
    ensures var d := Doc("banana", map[], map[]);
      var m := Replace(Computed((c: seq<char>, s: int, e: int) => Text("X")));
      && StepAsWritten(d, m, 1, 2, 0) == Ok(Doc("b nana", map[1 := FunctionObject], map[]))
      && Step(d, m, 1, 2, 0) == Ok(Doc("bXnana", map[], map[]))
  {
    var d := Doc("banana", map[], map[]);
    assert Normalize(6, 1, 2) == Ok((1, 2));
    assert ShiftElements(map[], 2, 0) == map[];
    assert Annotations.ShiftStore(map[], 2, 0) == map[];
    assert Without(map[], 1, 2) == map[];
    assert Splice(d, 1, 2, Placeholder(FunctionObject)).content == "b nana";
    assert Splice(d, 1, 2, Text("X")).content == "bXnana";
  }

  /*** What a single hit does ***/

  /** DELETE cuts `[s, e)` out of the text and shifts the annotation
      boundaries after `e` down by the length cut. */
  lemma DeleteText(d: Doc, s: int, e: int)
    requires 0 <= s <= e <= |d.content|
    ensures var r := DeleteRange(d, s, e);
      && |r.content| == |d.content| - (e - s)
      && r.content[..s] == d.content[..s] && r.content[s..] == d.content[e..]
      && r.annotations == Annotations.ShiftStore(d.annotations, e, s - e)
  {
  }

  /** An element outside `[s, e)` survives a DELETE: in place before `s`,
      moved down by `e - s` from `e` on. */
  lemma DeleteMovesElement(d: Doc, s: int, e: int, k: int)
    requires 0 <= s <= e <= |d.content| && k in d.elements && !(s <= k < e)
    ensures var r := DeleteRange(d, s, e);
      var j := if k < s then k else k - (e - s);
      j in r.elements && r.elements[j] == d.elements[k]
  {
    var kept := Without(d.elements, s, e);
    if k < s {
      ElementStays(kept, e, s - e, k);
    } else {
      ElementMoves(kept, e, s - e, k);
    }
  }

  /** Every element after a DELETE comes from outside `[s, e)`: nothing in
      the deleted range survives. */
  lemma DeleteElementOrigin(d: Doc, s: int, e: int, j: int)
    requires 0 <= s <= e <= |d.content| && j in DeleteRange(d, s, e).elements
    ensures (j < s && j in d.elements) || (j + (e - s) in d.elements && e <= j + (e - s))
  {
    ElementOrigin(Without(d.elements, s, e), e, s - e, j);
  }

  /** Inserting text `t` at `p` puts it between the old text before and
      from `p`; annotation boundaries after `p` move up by `|t|`. */
  lemma InsertText(d: Doc, p: int, t: seq<char>)
    requires 0 <= p <= |d.content|
    ensures var r := Splice(d, p, p, Text(t));
      && |r.content| == |d.content| + |t|
      && r.content[..p] == d.content[..p] && r.content[p..p + |t|] == t && r.content[p + |t|..] == d.content[p..]
      && r.annotations == Annotations.ShiftStore(d.annotations, p, |t|)
  {
  }

  /** Inserted text leaves elements before `p` in place and moves those
      at or after `p` up by `|t|`. */
  lemma InsertTextMovesElement(d: Doc, p: int, t: seq<char>, k: int)
    requires 0 <= p <= |d.content| && k in d.elements
    ensures var r := Splice(d, p, p, Text(t));
      var j := if k < p then k else k + |t|;
      j in r.elements && r.elements[j] == d.elements[k]
  {
    if k < p {
      ElementStays(d.elements, p, |t|, k);
    } else {
      ElementMoves(d.elements, p, |t|, k);
    }
  }

  /** No element appears from nowhere when text is inserted. */
  lemma InsertTextElementOrigin(d: Doc, p: int, t: seq<char>, j: int)
    requires 0 <= p <= |d.content| && j in Splice(d, p, p, Text(t)).elements
    ensures (j < p && j in d.elements) || (j - |t| in d.elements && p <= j - |t|)
  {
    ElementOrigin(d.elements, p, |t|, j);
  }

  lemma InsertTextKeepsValid(d: Doc, p: int, t: seq<char>)
    requires Valid(d) && 0 <= p <= |d.content|
    ensures Valid(Splice(d, p, p, Text(t)))
  {
    var r := Splice(d, p, p, Text(t));
    InsertText(d, p, t);
    forall j | j in r.elements ensures 0 <= j < |r.content| {
      InsertTextElementOrigin(d, p, t, j);
    }
  }

  /** Inserting an element at `p` adds one placeholder character there and
      stores the element at `p`. */
  lemma InsertElement(d: Doc, p: int, el: Element)
    requires 0 <= p <= |d.content|
    ensures var r := Splice(d, p, p, Placeholder(el));
      && r.content == d.content[..p] + [' '] + d.content[p..]
      && p in r.elements && r.elements[p] == el
      && r.annotations == Annotations.ShiftStore(d.annotations, p, 1)
  {
  }

  /** An inserted element pushes whatever was at or after `p` up by one,
      including an element that was at `p` itself. */
  lemma InsertElementMovesElement(d: Doc, p: int, el: Element, k: int)
    requires 0 <= p <= |d.content| && k in d.elements
    ensures var r := Splice(d, p, p, Placeholder(el));
      var j := if k < p then k else k + 1;
      j in r.elements && r.elements[j] == d.elements[k]
  {
    if k < p {
      ElementStays(d.elements, p, 1, k);
    } else {
      ElementMoves(d.elements, p, 1, k);
    }
  }

  /** Apart from the new one at `p`, every element after the insertion was
      there before. */
  lemma InsertElementOrigin(d: Doc, p: int, el: Element, j: int)
    requires 0 <= p <= |d.content| && j in Splice(d, p, p, Placeholder(el)).elements && j != p
    ensures (j < p && j in d.elements) || (j - 1 in d.elements && p <= j - 1)
  {
    ElementOrigin(d.elements, p, 1, j);
  }

  lemma InsertElementKeepsValid(d: Doc, p: int, el: Element)
    requires Valid(d) && 0 <= p <= |d.content|
    ensures Valid(Splice(d, p, p, Placeholder(el)))
  {
    var r := Splice(d, p, p, Placeholder(el));
    InsertElement(d, p, el);
    forall j | j in r.elements ensures 0 <= j < |r.content| {
      if j != p {
        InsertElementOrigin(d, p, el, j);
      }
    }
  }

  /** Growing the table by `n` at `p` leaves `[p, p + n)` empty, so dropping
      that range and shrinking back restores the table. */
  lemma GapHoldsNothing(m: map<int, Element>, moved: map<int, Element>, p: int, n: int, e: int, back: int)
    requires moved == ShiftElements(m, p, n)
    requires n >= 0 && e == p + n && back == p - e
    ensures ShiftElements(Without(moved, p, e), e, back) == m
  {
    var kept := Without(moved, p, e);
    forall k | k in moved ensures k in kept && kept[k] == moved[k] {
      ElementOrigin(m, p, n, k);
    }
    SameTable(moved, kept);
    ShiftElementsRoundTrip(m, p, n);
    assert ShiftElements(kept, e, back) == ShiftElements(ShiftElements(m, p, n), p + n, -n);
  }

  /** Deleting the text just inserted gives back the document exactly:
      content, elements and annotation boundaries. */
  lemma InsertTextThenDelete(d: Doc, p: int, t: seq<char>)
    requires 0 <= p <= |d.content|
    ensures var i := Splice(d, p, p, Text(t));
      p + |t| <= |i.content| && DeleteRange(i, p, p + |t|) == d
  {
    var r := DeleteRange(Splice(d, p, p, Text(t)), p, p + |t|);
    InsertTextDeleteContent(d, p, t);
    InsertTextDeleteTables(d, p, t);
    assert r == Doc(r.content, r.elements, r.annotations);
  }

  lemma InsertTextDeleteContent(d: Doc, p: int, t: seq<char>)
    requires 0 <= p <= |d.content|
    ensures var i := Splice(d, p, p, Text(t));
      p + |t| <= |i.content| && DeleteRange(i, p, p + |t|).content == d.content
  {
    var i := Splice(d, p, p, Text(t));
    assert i.content == d.content[..p] + t + d.content[p..];
    CutInserted(d.content, p, t);
  }

  lemma InsertTextDeleteTables(d: Doc, p: int, t: seq<char>)
    requires 0 <= p <= |d.content|
    ensures var i := Splice(d, p, p, Text(t));
      p + |t| <= |i.content|
      && DeleteRange(i, p, p + |t|).elements == d.elements
      && DeleteRange(i, p, p + |t|).annotations == d.annotations
  {
    InsertTextDeleteElements(d, p, t);
    InsertTextDeleteAnnotations(d, p, t);
  }

  lemma InsertTextDeleteElements(d: Doc, p: int, t: seq<char>)
    requires 0 <= p <= |d.content|
    ensures var i := Splice(d, p, p, Text(t));
      p + |t| <= |i.content| && DeleteRange(i, p, p + |t|).elements == d.elements
  {
    var i := Splice(d, p, p, Text(t));
    var moved := SpliceTextElements(d, p, t);
    var kept := DeleteRangeElements(i, p, p + |t|);
    GapHoldsNothing(d.elements, i.elements, p, |t|, p + |t|, p - (p + |t|));
  }

  /** The element table after inserting text at `p` is the old one shifted
      from `p`. */
  lemma SpliceTextElements(d: Doc, p: int, t: seq<char>) returns (moved: map<int, Element>)
    requires 0 <= p <= |d.content|
    ensures moved == Splice(d, p, p, Text(t)).elements
    ensures moved == ShiftElements(d.elements, p, |t|)
  {
    moved := Splice(d, p, p, Text(t)).elements;
  }

  /** The element table after deleting `[s, e)` is the old one without
      that range, shifted down from `e`. */
  lemma DeleteRangeElements(d: Doc, s: int, e: int) returns (kept: map<int, Element>)
    requires 0 <= s <= |d.content| && 0 <= e <= |d.content|
    ensures kept == DeleteRange(d, s, e).elements
    ensures kept == ShiftElements(Without(d.elements, s, e), e, s - e)
  {
    kept := DeleteRange(d, s, e).elements;
  }

  lemma InsertTextDeleteAnnotations(d: Doc, p: int, t: seq<char>)
    requires 0 <= p <= |d.content|
    ensures var i := Splice(d, p, p, Text(t));
      p + |t| <= |i.content| && DeleteRange(i, p, p + |t|).annotations == d.annotations
  {
    var i := Splice(d, p, p, Text(t));
    assert i.annotations == Annotations.ShiftStore(d.annotations, p, |t|);
    var r := DeleteRange(i, p, p + |t|);
    assert r.annotations == Annotations.ShiftStore(i.annotations, p + |t|, -|t|);
    Annotations.ShiftStoreRoundTrip(d.annotations, p, |t|);
  }

  lemma CutInserted(c: seq<char>, p: int, t: seq<char>)
    requires 0 <= p <= |c|
    ensures var i := c[..p] + t + c[p..];
      p + |t| <= |i| && i[..p] + i[p + |t|..] == c
  {
    var i := c[..p] + t + c[p..];
    assert i[..p] == c[..p];
    assert i[p + |t|..] == c[p..];
  }

  /** Deleting the placeholder just inserted gives back the document. */
  lemma InsertElementThenDelete(d: Doc, p: int, el: Element)
    requires 0 <= p <= |d.content|
    ensures var i := Splice(d, p, p, Placeholder(el));
      p + 1 <= |i.content| && DeleteRange(i, p, p + 1) == d
  {
    var i := Splice(d, p, p, Placeholder(el));
    var moved := ShiftElements(d.elements, p, 1);
    assert i.elements == moved[p := el];
    assert i.content == d.content[..p] + [' '] + d.content[p..];
    var kept := Without(i.elements, p, p + 1);
    forall k | k in moved ensures k in kept && kept[k] == moved[k] {
      ElementOrigin(d.elements, p, 1, k);
    }
    SameTable(moved, kept);
    ShiftElementsRoundTrip(d.elements, p, 1);
    Annotations.ShiftStoreRoundTrip(d.annotations, p, 1);
    var r := DeleteRange(i, p, p + 1);
    assert r.content == d.content;
  }

  /** REPLACE of `[s, e)` by text `t`: the text between is swapped, the
      length changes by `|t| - (e - s)`, and no element is left inside the
      new text. */
  lemma ReplaceText(d: Doc, s: int, e: int, t: seq<char>)
    requires 0 <= s <= e <= |d.content|
    ensures var r := ReplaceRange(d, s, e, Text(t));
      && |r.content| == |d.content| - (e - s) + |t|
      && r.content[..s] == d.content[..s] && r.content[s..s + |t|] == t && r.content[s + |t|..] == d.content[e..]
      && r.annotations == Annotations.ShiftStore(d.annotations, e, |t| + s - e)
      && forall j :: j in r.elements ==> j < s || j >= s + |t|
  {
    var r := ReplaceRange(d, s, e, Text(t));
    forall j | j in r.elements ensures j < s || j >= s + |t| {
      ElementOrigin(Without(d.elements, s, e), e, |t| + s - e, j);
    }
  }

  /** An element outside `[s, e)` survives a splice: before `e` in place,
      from `e` on moved by the change in length, `|Chars(v)| - (e - s)`. */
  lemma SpliceMovesElement(d: Doc, s: int, e: int, v: Insertable, k: int)
    requires 0 <= s <= |d.content| && 0 <= e <= |d.content|
    requires k in d.elements && !(s <= k < e)
    ensures var r := Splice(d, s, e, v);
      var j := if k >= e then k + |Chars(v)| + s - e else k;
      j in r.elements && r.elements[j] == d.elements[k]
  {
    if k >= e {
      ElementMoves(d.elements, e, |Chars(v)| + s - e, k);
    } else {
      ElementStays(d.elements, e, |Chars(v)| + s - e, k);
    }
  }

  /** Apart from an inserted element at `s`, every element after a splice
      was there before: in place before `e`, or moved from `e` or later. */
  lemma SpliceElementOrigin(d: Doc, s: int, e: int, v: Insertable, j: int)
    requires 0 <= s <= |d.content| && 0 <= e <= |d.content|
    requires j in Splice(d, s, e, v).elements && !(v.Placeholder? && j == s)
    ensures (j < e && j in d.elements) || (j - (|Chars(v)| + s - e) in d.elements && e <= j - (|Chars(v)| + s - e))
  {
    ElementOrigin(d.elements, e, |Chars(v)| + s - e, j);
  }

  /** The corrected REPLACE moves an element outside `[s, e)` as the splice
      does: in place before `s`, moved by the change in length from `e` on. */
  lemma ReplaceMovesElement(d: Doc, s: int, e: int, v: Insertable, k: int)
    requires 0 <= s <= |d.content| && 0 <= e <= |d.content|
    requires k in d.elements && !(s <= k < e)
    ensures var r := ReplaceRange(d, s, e, v);
      var j := if k >= e then k + |Chars(v)| + s - e else k;
      j in r.elements && r.elements[j] == d.elements[k]
  {
    SpliceMovesElement(d.(elements := Without(d.elements, s, e)), s, e, v, k);
  }

  /** Apart from an inserted element at `s`, every element after the
      corrected REPLACE comes from outside `[s, e)`: nothing in the replaced
      range survives. */
  lemma ReplaceElementOrigin(d: Doc, s: int, e: int, v: Insertable, j: int)
    requires 0 <= s <= |d.content| && 0 <= e <= |d.content|
    requires j in ReplaceRange(d, s, e, v).elements && !(v.Placeholder? && j == s)
    ensures (j < s && j < e && j in d.elements) || (j - (|Chars(v)| + s - e) in d.elements && e <= j - (|Chars(v)| + s - e))
  {
    SpliceElementOrigin(d.(elements := Without(d.elements, s, e)), s, e, v, j);
  }

  /** REPLACE does not drop the elements inside the replaced range, unlike
      DELETE: one at `k` in `[s, e)` stays at `k` (unless an element moved
      down from `e` or later lands on it). */
  lemma ReplaceKeepsCoveredElement(d: Doc, s: int, e: int, t: seq<char>, k: int)
    requires 0 <= s <= k < e <= |d.content| && k in d.elements && k < s + |t|
    ensures k in Splice(d, s, e, Text(t)).elements
    ensures Splice(d, s, e, Text(t)).elements[k] == d.elements[k]
  {
    ElementStays(d.elements, e, |t| + s - e, k);
  }

  /** So REPLACE as written can leave an element beyond the end of the
      text: replacing all of "ab", with an element at 1, by "x". The
      corrected step keeps the document valid on the same input. */
  lemma ReplaceCanLeaveElementOutside(el: Element)
    ensures var d := Doc("ab", map[1 := el], map[]);
      var r := StepAsWritten(d, Replace(Listed([Text("x")])), 0, 2, 0);
      var c := Step(d, Replace(Listed([Text("x")])), 0, 2, 0);
      Valid(d) && r.Ok? && !Valid(r.value) && c.Ok? && Valid(c.value)
  {
    var d := Doc("ab", map[1 := el], map[]);
    assert Normalize(2, 0, 2) == Ok((0, 2));
    var r := Splice(d, 0, 2, Text("x"));
    ElementStays(d.elements, 2, -1, 1);
    assert 1 in r.elements && |r.content| == 1;
  }

  /** ANNOTATE with a (name, value) pair: text and elements stay, other
      names keep their lists, and the name ends with an entry of that value
      covering the normalised hit. */
  lemma StepAnnotate(d: Doc, name: string, value: Annotations.Value, start: int, end: int, k: nat)
    requires Normalize(|d.content|, start, end).Ok?
    ensures var h := Normalize(|d.content|, start, end).value;
      var r := Step(d, Annotate(Listed([(name, value)])), start, end, k);
      && r.Ok? && r.value.content == d.content && r.value.elements == d.elements
      && name in r.value.annotations && |r.value.annotations[name]| > 0
      && (var last := r.value.annotations[name][|r.value.annotations[name]| - 1];
          last.value == value && last.start <= h.0 && h.1 <= last.end)
      && (forall n :: n in d.annotations && n != name ==> n in r.value.annotations && r.value.annotations[n] == d.annotations[n])
  {
  }

  /** CLEAR_ANNOTATION of a name: text and elements stay, other names keep
      their lists, and no well-formed entry of the name is left inside the
      normalised hit. */
  lemma StepClear(d: Doc, name: string, start: int, end: int, k: nat)
    requires Normalize(|d.content|, start, end).Ok?
    ensures var h := Normalize(|d.content|, start, end).value;
      var r := Step(d, ClearAnnotation(Listed([name])), start, end, k);
      && r.Ok? && r.value.content == d.content && r.value.elements == d.elements
      && (forall n :: n != name ==> (n in r.value.annotations <==> n in d.annotations))
      && (name in r.value.annotations ==>
            forall p :: p in r.value.annotations[name] && p.start <= p.end ==> !(h.0 <= p.start && p.end <= h.1))
  {
    var h := Normalize(|d.content|, start, end).value;
    var r := Step(d, ClearAnnotation(Listed([name])), start, end, k);
    assert r.value.annotations == Annotations.Remove(d.annotations, name, h.0, h.1, |d.content|);
    if name in r.value.annotations {
      Annotations.RemoveClearsRange(d.annotations, name, h.0, h.1, |d.content|);
    }
  }

  /** DELETE keeps every element offset inside the text, even for a hit
      whose start lies after its end. */
  lemma DeleteKeepsValid(d: Doc, s: int, e: int)
    requires Valid(d) && 0 <= s <= |d.content| && 0 <= e <= |d.content|
    ensures Valid(DeleteRange(d, s, e))
  {
    var r := DeleteRange(d, s, e);
    assert |r.content| == s + (|d.content| - e);
    forall j | j in r.elements ensures 0 <= j < |r.content| {
      ElementOrigin(Without(d.elements, s, e), e, s - e, j);
    }
  }

  /** Every mutation keeps element offsets inside the text. */
  lemma StepKeepsValid(d: Doc, m: Mutation, start: int, end: int, k: nat)
    requires Valid(d)
    ensures Step(d, m, start, end, k).Ok? ==> Valid(Step(d, m, start, end, k).value)
  {
    var r := Step(d, m, start, end, k);
    if r.Ok? {
      var h := Normalize(|d.content|, start, end).value;
      match m
      case Delete => DeleteKeepsValid(d, h.0, h.1);
      case Insert(vs) => {
        match Pick(vs, d.content, h.0, h.1, k).value
        case Text(t) => InsertTextKeepsValid(d, h.0, t);
        case Placeholder(el) => InsertElementKeepsValid(d, h.0, el);
      }
      case InsertAfter(vs) => {
        match Pick(vs, d.content, h.0, h.1, k).value
        case Text(t) => InsertTextKeepsValid(d, h.1, t);
        case Placeholder(el) => InsertElementKeepsValid(d, h.1, el);
      }
      case Replace(_) =>
      case Annotate(_) =>
      case ClearAnnotation(_) =>
      case UpdateElement(_) =>
    }
  }

  /*** Running a selection ***/

  /** The document after a run, how many hits were applied, and the error
      that stopped it, if any. */
  datatype Outcome = Outcome(doc: Doc, applied: nat, failure: Option<Error>)

  /** Apply the hits in order, hit `i` (counting from `k`) taking value
      number `i`; the first error stops the run and the document keeps the
      hits already applied. */
  function RunHits(d: Doc, m: Mutation, hits: seq<Hit>, k: nat): (r: Outcome)
    ensures r.applied <= |hits|
    ensures r.failure.None? <==> r.applied == |hits|
    decreases |hits|
  {
    if |hits| == 0 then Outcome(d, 0, None)
    else
      match Step(d, m, hits[0].start, hits[0].end, k)
      case Err(x) => Outcome(d, 0, Some(x))
      case Ok(next) =>
        var rest := RunHits(next, m, hits[1..], k + 1);
        rest.(applied := rest.applied + 1)
  }

  /** A failed run leaves exactly the document that the hits before the
      failing one produce. */
  lemma {:induction false} RunHitsPartial(d: Doc, m: Mutation, hits: seq<Hit>, k: nat)
    ensures var r := RunHits(d, m, hits, k);
      RunHits(d, m, hits[..r.applied], k) == Outcome(r.doc, r.applied, None)
    decreases |hits|
  {
    var r := RunHits(d, m, hits, k);
    if |hits| > 0 {
      var step := Step(d, m, hits[0].start, hits[0].end, k);
      if step.Ok? {
        var rest := RunHits(step.value, m, hits[1..], k + 1);
        RunHitsPartial(step.value, m, hits[1..], k + 1);
        var prefix := hits[..r.applied];
        assert prefix[0] == hits[0];
        assert prefix[1..] == hits[1..][..rest.applied];
      }
    }
  }

  /** A run keeps element offsets inside the text, whether or not it
      fails part-way. */
  lemma {:induction false} RunKeepsValid(d: Doc, m: Mutation, hits: seq<Hit>, k: nat)
    ensures Valid(d) ==> Valid(RunHits(d, m, hits, k).doc)
    decreases |hits|
  {
    if |hits| > 0 && Valid(d) {
      StepKeepsValid(d, m, hits[0].start, hits[0].end, k);
      match Step(d, m, hits[0].start, hits[0].end, k)
      case Err(x) =>
      case Ok(next) => RunKeepsValid(next, m, hits[1..], k + 1);
    }
  }

  /** Only the position of a hit within the value cycle matters. */
  lemma StepPeriodic(d: Doc, m: Mutation, start: int, end: int, k: nat)
    ensures Step(d, m, start, end, k) == Step(d, m, start, end, k % Period(m))
  {
    var n := Period(m);
    match Normalize(|d.content|, start, end)
    case Err(_) =>
    case Ok((s, e)) =>
      match m
      case Delete =>
      case Insert(vs) => PickPeriodic(vs, d.content, s, e, k, n);
      case InsertAfter(vs) => PickPeriodic(vs, d.content, s, e, k, n);
      case Replace(vs) => PickPeriodic(vs, d.content, s, e, k, n);
      case Annotate(vs) => PickPeriodic(vs, d.content, s, e, k, n);
      case ClearAnnotation(vs) => PickPeriodic(vs, d.content, s, e, k, n);
      case UpdateElement(vs) => PickPeriodic(vs, d.content, s, e, k, n);
  }

  /** `Pick` at `k` and at `k` modulo the number of listed values agree. */
  lemma PickPeriodic<T>(vs: Values<T>, content: seq<char>, s: int, e: int, k: nat, n: nat)
    requires n >= 1
    requires vs.Listed? && |vs.items| > 0 ==> n == |vs.items|
    ensures Pick(vs, content, s, e, k) == Pick(vs, content, s, e, k % n)
  {
    if vs.Listed? && |vs.items| > 0 {
      assert (k % n) % n == k % n;
    }
  }

  /** The one value hit `k` takes from a list, as a list of one; a function,
      or an empty list, is left as it is. */
  function Only<T>(vs: Values<T>, k: nat): Values<T>
  {
    if vs.Listed? && |vs.items| > 0 then Listed([vs.items[k % |vs.items|]]) else vs
  }

  /** The mutation with its values cut down to the one hit `k` takes. */
  function OnlyFor(m: Mutation, k: nat): Mutation
  {
    match m
    case Delete => Delete
    case Insert(vs) => Insert(Only(vs, k))
    case InsertAfter(vs) => InsertAfter(Only(vs, k))
    case Replace(vs) => Replace(Only(vs, k))
    case Annotate(vs) => Annotate(Only(vs, k))
    case ClearAnnotation(vs) => ClearAnnotation(Only(vs, k))
    case UpdateElement(vs) => UpdateElement(Only(vs, k))
  }

  lemma PickOnly<T>(vs: Values<T>, content: seq<char>, s: int, e: int, k: nat)
    ensures Pick(vs, content, s, e, k) == Pick(Only(vs, k), content, s, e, 0)
  {
  }

  /** Values are taken round-robin: hit `k` does what the first hit would
      do with value number `k` modulo the number of values alone. */
  lemma StepTakesValueK(d: Doc, m: Mutation, start: int, end: int, k: nat)
    ensures Step(d, m, start, end, k) == Step(d, OnlyFor(m, k), start, end, 0)
  {
    match Normalize(|d.content|, start, end)
    case Err(_) =>
    case Ok((s, e)) =>
      match m
      case Delete =>
      case Insert(vs) => PickOnly(vs, d.content, s, e, k);
      case InsertAfter(vs) => PickOnly(vs, d.content, s, e, k);
      case Replace(vs) => PickOnly(vs, d.content, s, e, k);
      case Annotate(vs) => PickOnly(vs, d.content, s, e, k);
      case ClearAnnotation(vs) => PickOnly(vs, d.content, s, e, k);
      case UpdateElement(vs) => PickOnly(vs, d.content, s, e, k);
  }

  lemma MulAtLeast(x: int, n: int)
    requires x >= 1 && n >= 1
    ensures x * n >= n
  {
  }

  /** Quotient and remainder are determined by `a == q * n + r`, `0 <= r < n`. */
  lemma DivModUnique(a: int, n: int, q: int, r: int)
    requires n >= 1 && 0 <= r < n && a == q * n + r
    ensures a % n == r
  {
    var q0 := a / n;
    var r0 := a % n;
    assert a == q0 * n + r0;
    if q0 < q {
      MulAtLeast(q - q0, n);
    } else if q < q0 {
      MulAtLeast(q0 - q, n);
    }
  }

  lemma ModSucc(i: nat, n: nat)
    requires n >= 1
    ensures (i % n + 1) % n == (i + 1) % n
  {
    var q := i / n;
    var r := i % n;
    assert i == q * n + r;
    if r + 1 < n {
      DivModUnique(i + 1, n, q, r + 1);
      DivModUnique(r + 1, n, 0, r + 1);
    } else {
      assert (q + 1) * n == q * n + n;
      DivModUnique(i + 1, n, q + 1, 0);
      DivModUnique(r + 1, n, 1, 0);
    }
  }

  /** One step of `RunHits` from hit `i` on, given that step's result `r`. */
  lemma RunHitsUnfold(d: Doc, m: Mutation, hits: seq<Hit>, i: nat, r: Result<Doc>)
    requires i < |hits|
    requires r == Step(d, m, hits[i].start, hits[i].end, i)
    ensures r.Err? ==> RunHits(d, m, hits[i..], i) == Outcome(d, 0, Some(r.error))
    ensures r.Ok? ==>
      var rest := RunHits(r.value, m, hits[i + 1..], i + 1);
      RunHits(d, m, hits[i..], i) == rest.(applied := rest.applied + 1)
  {
    var tail := hits[i..];
    assert tail[0] == hits[i];
    assert tail[1..] == hits[i + 1..];
  }

  /** The outcome of a whole run, seen from hit `i` on: the run of the
      remaining hits from `doc`, with the `i` hits before them counted. */
  function Resume(doc: Doc, m: Mutation, hits: seq<Hit>, i: nat): (r: Outcome)
    requires i <= |hits|
    ensures r.applied >= i
    ensures i == |hits| ==> r == Outcome(doc, i, None)
  {
    var rest := RunHits(doc, m, hits[i..], i);
    rest.(applied := rest.applied + i)
  }

  /** One turn of `Execute`'s loop: the run from hit `i` on either stops
      with the step's error or continues from the step's document. */
  lemma RunAdvances(doc: Doc, m: Mutation, hits: seq<Hit>, i: nat, r: Result<Doc>)
    requires i < |hits|
    requires r == Step(doc, m, hits[i].start, hits[i].end, i % Period(m))
    ensures r.Err? ==> Resume(doc, m, hits, i) == Outcome(doc, i, Some(r.error))
    ensures r.Ok? ==> Resume(doc, m, hits, i) == Resume(r.value, m, hits, i + 1)
  {
    StepPeriodic(doc, m, hits[i].start, hits[i].end, i);
    RunHitsUnfold(doc, m, hits, i, Step(doc, m, hits[i].start, hits[i].end, i));
  }

  /** One turn of `_execute`'s loop: the step on hit `i`, stated by what it
      means for the whole run `total`, and the index of the next value,
      kept modulo the number of values. */
  method Advance(ghost total: Outcome, doc: Doc, m: Mutation, hits: seq<Hit>, i: nat, nextIndex: nat)
    returns (r: Result<Doc>, following: nat)
    requires i < |hits| && nextIndex == i % Period(m)
    requires total == Resume(doc, m, hits, i)
    ensures r.Err? ==> total == Outcome(doc, i, Some(r.error))
    ensures r.Ok? ==> total == Resume(r.value, m, hits, i + 1)
    ensures following == (i + 1) % Period(m)
  {
    r := Step(doc, m, hits[i].start, hits[i].end, nextIndex);
    RunAdvances(doc, m, hits, i, r);
    ModSucc(i, Period(m));
    following := (nextIndex + 1) % Period(m);
  }

  /** `_execute` as a loop: the index of the next value is kept modulo the
      number of values, as the source does, and the result is the run of
      `RunHits`, in which hit `i` takes value number `i`. */
  method Execute(d: Doc, m: Mutation, hits: seq<Hit>) returns (out: Outcome)
    ensures out == RunHits(d, m, hits, 0)
  {
    ghost var total := RunHits(d, m, hits, 0);
    var doc := d;
    var i := 0;
    var nextIndex := 0;
    while i < |hits|
      invariant 0 <= i <= |hits|
      invariant nextIndex == i % Period(m)
      invariant total == Resume(doc, m, hits, i)
      decreases |hits| - i
    {
      var r, following := Advance(total, doc, m, hits, i, nextIndex);
      if r.Err? {
        return Outcome(doc, i, Some(r.error));
      }
      doc := r.value;
      nextIndex := following;
      i := i + 1;
    }
    return Outcome(doc, i, None);
  }

  /** `BlipRefs._execute` on a selection: the hits are resolved first, on
      the document as it is. An uncapped search for the empty pattern hits
      `(0, 0)` again and again; on a non-empty document the first of these
      hits already fails, so the run is that one step. */
  function Apply(d: Doc, sel: Selector, m: Mutation): (r: Outcome)
    requires WellFormed(sel) || |d.content| > 0
    ensures WellFormed(sel) ==> r.applied <= |Hits(d, sel)|
    ensures WellFormed(sel) ==> (r.failure.None? <==> r.applied == |Hits(d, sel)|)
    ensures !WellFormed(sel) ==> r == Outcome(d, 0, Some(IndexError))
    ensures Valid(d) ==> Valid(r.doc)
  {
    if WellFormed(sel) then
      RunKeepsValid(d, m, Hits(d, sel), 0);
      RunHits(d, m, Hits(d, sel), 0)
    else
      RunHits(d, m, [Hit(0, 0)], 0)
  }

  /** Deleting at 1, then at 3, then at 5. */
  lemma BananaDeletes()
    ensures Step(Doc("banana", map[], map[]), Delete, 1, 2, 0) == Ok(Doc("bnana", map[], map[]))
    ensures Step(Doc("bnana", map[], map[]), Delete, 3, 4, 1) == Ok(Doc("bnaa", map[], map[]))
    ensures Step(Doc("bnaa", map[], map[]), Delete, 5, 6, 2) == Err(IndexError)
  {
    assert ShiftElements(map[], 2, -1) == map[] && ShiftElements(map[], 4, -1) == map[];
    assert Annotations.ShiftStore(map[], 2, -1) == map[] && Annotations.ShiftStore(map[], 4, -1) == map[];
    assert Normalize(6, 1, 2) == Ok((1, 2)) && Normalize(5, 3, 4) == Ok((3, 4));
    assert DeleteRange(Doc("banana", map[], map[]), 1, 2).content == "bnana";
    assert DeleteRange(Doc("bnana", map[], map[]), 3, 4).content == "bnaa";
  }

  /** The hits are resolved once, before any of them is applied: deleting
      every "a" of "banana" deletes at 1 and at 3 (by then an "n"), giving
      "bnaa", and the third hit, at 5, lies past the end of the text. */
  lemma DeleteEveryMatchExample()
    ensures Apply(Doc("banana", map[], map[]), TextSearch("a", -1), Delete)
      == Outcome(Doc("bnaa", map[], map[]), 2, Some(IndexError))
  {
    BananaExample();
    assert Hits(Doc("banana", map[], map[]), TextSearch("a", -1)) == [Hit(1, 2), Hit(3, 4), Hit(5, 6)];
    BananaRun();
  }

  /** The three deletions of `BananaDeletes` as one run. */
  lemma BananaRun()
    ensures RunHits(Doc("banana", map[], map[]), Delete, [Hit(1, 2), Hit(3, 4), Hit(5, 6)], 0)
      == Outcome(Doc("bnaa", map[], map[]), 2, Some(IndexError))
  {
    BananaDeletes();
    var hits := [Hit(1, 2), Hit(3, 4), Hit(5, 6)];
    assert hits[1..] == [Hit(3, 4), Hit(5, 6)] && hits[1..][1..] == [Hit(5, 6)];
    assert RunHits(Doc("bnaa", map[], map[]), Delete, [Hit(5, 6)], 2) == Outcome(Doc("bnaa", map[], map[]), 0, Some(IndexError));
  }

  /** Replacing at 1, 3 and 5 with the values "x" and "y" in turn. */
  lemma BananaReplaces()
    ensures var m := Replace(Listed([Text("x"), Text("y")]));
      && Step(Doc("banana", map[], map[]), m, 1, 2, 0) == Ok(Doc("bxnana", map[], map[]))
      && Step(Doc("bxnana", map[], map[]), m, 3, 4, 1) == Ok(Doc("bxnyna", map[], map[]))
      && Step(Doc("bxnyna", map[], map[]), m, 5, 6, 2) == Ok(Doc("bxnynx", map[], map[]))
  {
    assert Without(map[], 1, 2) == map[] && Without(map[], 3, 4) == map[] && Without(map[], 5, 6) == map[];
    assert ShiftElements(map[], 2, 0) == map[] && ShiftElements(map[], 4, 0) == map[] && ShiftElements(map[], 6, 0) == map[];
    assert Annotations.ShiftStore(map[], 2, 0) == map[] && Annotations.ShiftStore(map[], 4, 0) == map[];
    assert Annotations.ShiftStore(map[], 6, 0) == map[];
    assert Normalize(6, 1, 2) == Ok((1, 2)) && Normalize(6, 3, 4) == Ok((3, 4)) && Normalize(6, 5, 6) == Ok((5, 6));
    assert Splice(Doc("banana", map[], map[]), 1, 2, Text("x")).content == "bxnana";
    assert Splice(Doc("bxnana", map[], map[]), 3, 4, Text("y")).content == "bxnyna";
    assert Splice(Doc("bxnyna", map[], map[]), 5, 6, Text("x")).content == "bxnynx";
  }

  /** The three replacements of `BananaReplaces` as one run. */
  lemma BananaReplaceRun()
    ensures RunHits(Doc("banana", map[], map[]), Replace(Listed([Text("x"), Text("y")])), [Hit(1, 2), Hit(3, 4), Hit(5, 6)], 0)
      == Outcome(Doc("bxnynx", map[], map[]), 3, None)
  {
    BananaReplaces();
    var hits := [Hit(1, 2), Hit(3, 4), Hit(5, 6)];
    assert hits[1..] == [Hit(3, 4), Hit(5, 6)] && hits[1..][1..] == [Hit(5, 6)] && hits[1..][1..][1..] == [];
  }

  /** Replacing every "a" of "banana" with "x" and "y" in turn: the values
      alternate from hit to hit. The replacements keep the length, so the
      offsets found up front are still those of the "a"s. */
  lemma AlternatingReplaceExample()
    ensures Apply(Doc("banana", map[], map[]), TextSearch("a", -1), Replace(Listed([Text("x"), Text("y")])))
      == Outcome(Doc("bxnynx", map[], map[]), 3, None)
  {
    BananaExample();
    assert Hits(Doc("banana", map[], map[]), TextSearch("a", -1)) == [Hit(1, 2), Hit(3, 4), Hit(5, 6)];
    BananaReplaceRun();
  }

  /** The one hit of the whole document always takes an insertion after
      it: the value lands at the end of the text. */
  lemma AppendRun(d: Doc, v: Insertable)
    ensures var r := RunHits(d, InsertAfter(Listed([v])), [Hit(0, |d.content|)], 0);
      && r.failure.None? && r.applied == 1 && r.doc.content == d.content + Chars(v)
  {
    var n := |d.content|;
    assert Normalize(n, 0, n) == Ok((0, n));
    assert Pick(Listed([v]), d.content, 0, n, 0) == Ok(v);
    var s := Splice(d, n, n, v);
    assert Step(d, InsertAfter(Listed([v])), 0, n, 0) == Ok(s);
    assert s.content == s.content[..n] + s.content[n..n + |Chars(v)|];
    assert [Hit(0, n)][1..] == [];
  }

  /** `Blip.append`: INSERT_AFTER on the whole document, which cannot fail
      and puts the value after the last character. */
  function Append(d: Doc, v: Insertable): (r: Outcome)
    ensures r.failure.None? && r.applied == 1
    ensures r.doc.content == d.content + Chars(v)
    ensures Valid(d) ==> Valid(r.doc)
  {
    AppendRun(d, v);
    Apply(d, Whole, InsertAfter(Listed([v])))
  }

  /** `at(i).delete()` removes the one character at `i`, a negative `i`
      counting from the end. */
  lemma DeleteAt(d: Doc, i: int)
    requires -|d.content| <= i < |d.content|
    ensures var p := if i < 0 then i + |d.content| else i;
      var r := Apply(d, At(i), Delete);
      r.failure.None? && r.doc.content == d.content[..p] + d.content[p + 1..]
  {
    var len := |d.content|;
    var p := if i < 0 then i + len else i;
    assert Normalize(len, i, i + 1) == Ok((p, p + 1));
    var next := DeleteRange(d, p, p + 1);
    assert Step(d, Delete, i, i + 1, 0) == Ok(next);
    var hits := Hits(d, At(i));
    assert hits == [Hit(i, i + 1)] && hits[1..] == [];
    assert RunHits(next, Delete, hits[1..], 1) == Outcome(next, 0, None);
  }

  /** For a hit `(s, e)`, INSERT puts text before `s` and INSERT_AFTER puts
      it at `e`; either way the text grows by exactly the inserted text. */
  lemma StepInsertPlaces(d: Doc, t: seq<char>, start: int, end: int, k: nat)
    requires Normalize(|d.content|, start, end).Ok?
    ensures var h := Normalize(|d.content|, start, end).value;
      var before := Step(d, Insert(Listed([Text(t)])), start, end, k);
      var after := Step(d, InsertAfter(Listed([Text(t)])), start, end, k);
      && before.Ok? && before.value.content == d.content[..h.0] + t + d.content[h.0..]
      && after.Ok? && after.value.content == d.content[..h.1] + t + d.content[h.1..]
      && |before.value.content| == |after.value.content| == |d.content| + |t|
  {
  }

  /** Appending text adds it at the end and moves no element. */
  lemma AppendText(d: Doc, t: seq<char>)
    requires Valid(d)
    ensures var r := Append(d, Text(t));
      r.failure.None? && r.doc.content == d.content + t && r.doc.elements == d.elements && Valid(r.doc)
  {
    var len := |d.content|;
    var next := Splice(d, len, len, Text(t));
    assert Step(d, InsertAfter(Listed([Text(t)])), 0, len, 0) == Ok(next);
    assert next.content == d.content + t;
    forall k | k in d.elements ensures k in next.elements && next.elements[k] == d.elements[k] {
      InsertTextMovesElement(d, len, t, k);
    }
    forall j | j in next.elements ensures j in d.elements {
      InsertTextElementOrigin(d, len, t, j);
    }
    SameTable(d.elements, next.elements);
    InsertTextKeepsValid(d, len, t);
    var hits := Hits(d, Whole);
    assert hits == [Hit(0, len)] && hits[1..] == [];
    assert RunHits(next, InsertAfter(Listed([Text(t)])), hits[1..], 1) == Outcome(next, 0, None);
    assert Append(d, Text(t)) == Outcome(next, 1, None);
  }

  /** Appending an element adds one placeholder at the end, holding it. */
  lemma AppendElement(d: Doc, el: Element)
    requires Valid(d)
    ensures var r := Append(d, Placeholder(el));
      r.failure.None? && r.doc.content == d.content + [' ']
      && r.doc.elements == d.elements[|d.content| := el] && Valid(r.doc)
  {
    var len := |d.content|;
    var next := Splice(d, len, len, Placeholder(el));
    assert Step(d, InsertAfter(Listed([Placeholder(el)])), 0, len, 0) == Ok(next);
    InsertElement(d, len, el);
    assert next.content == d.content + [' '];
    var want := d.elements[len := el];
    forall k | k in want ensures k in next.elements && next.elements[k] == want[k] {
      if k != len {
        InsertElementMovesElement(d, len, el, k);
      }
    }
    forall j | j in next.elements ensures j in want {
      if j != len {
        InsertElementOrigin(d, len, el, j);
      }
    }
    SameTable(want, next.elements);
    InsertElementKeepsValid(d, len, el);
    var hits := Hits(d, Whole);
    assert hits == [Hit(0, len)] && hits[1..] == [];
    assert RunHits(next, InsertAfter(Listed([Placeholder(el)])), hits[1..], 1) == Outcome(next, 0, None);
    assert Append(d, Placeholder(el)) == Outcome(next, 1, None);
  }

  /*** The value of the first hit ***/

  datatype Found = FoundElement(element: Element) | FoundText(text: seq<char>)

  function Clamp(x: int, len: nat): (r: nat)
    ensures r <= len
  {
    if x < 0 then 0 else if x > len then len else x
  }

  /** Python's `text[i:j]`: negative offsets count from the end, both ends
      are clamped to the text, and an empty or reversed range gives "". */
  function PySlice(c: seq<char>, i: int, j: int): (r: seq<char>)
    ensures 0 <= i <= j <= |c| ==> r == c[i..j]
    ensures |r| <= |c|
  {
    var lo := Clamp(if i < 0 then i + |c| else i, |c|);
    var hi := Clamp(if j < 0 then j + |c| else j, |c|);
    if lo < hi then c[lo..hi] else []
  }

  /** `BlipRefs.value`: the element at a one-wide first hit that holds one,
      otherwise the text of the first hit, taken with Python slicing and no
      other normalisation. */
  function FirstValue(d: Doc, sel: Selector): (r: Result<Found>)
    ensures r.Err? <==> !HasMatch(d, sel)
    ensures r.Err? ==> r.error == NoValues
  {
    match FirstHit(d, sel)
    case None => Err(NoValues)
    case Some(h) =>
      if h.end - h.start == 1 && h.start in d.elements then Ok(FoundElement(d.elements[h.start]))
      else Ok(FoundText(PySlice(d.content, h.start, h.end)))
  }

  /** The first value of a text search that has a match is the pattern,
      except that a one-character match on an element placeholder gives
      the element. */
  lemma FirstValueOfText(d: Doc, pat: seq<char>, maxres: int, j: int)
    requires OccursAt(d.content, pat, j)
    ensures var r := FirstValue(d, TextSearch(pat, maxres));
      r == Ok(FoundText(pat)) || (|pat| == 1 && r.Ok? && r.value.FoundElement? && r.value.element in d.elements.Values)
  {
    var sel := TextSearch(pat, maxres);
    if |pat| == 0 {
      assert FirstHit(d, sel) == Some(Hit(0, 0));
      assert PySlice(d.content, 0, 0) == pat;
    } else {
      var h := FirstTextHit(d.content, pat, maxres, j);
      assert FirstHit(d, sel) == Some(h);
      if h.end - h.start == 1 && h.start in d.elements {
        assert FirstValue(d, sel) == Ok(FoundElement(d.elements[h.start]));
      } else {
        assert PySlice(d.content, h.start, h.end) == pat;
        assert FirstValue(d, sel) == Ok(FoundText(pat));
      }
    }
  }

  /** A search for a pattern that occurs has a first hit, and it is an
      occurrence. */
  lemma FirstTextHit(content: seq<char>, pat: seq<char>, maxres: int, j: int) returns (h: Hit)
    requires |pat| > 0 && OccursAt(content, pat, j)
    ensures |FindText(content, pat, maxres)| > 0 && h == FindText(content, pat, maxres)[0]
    ensures h.end == h.start + |pat| && OccursAt(content, pat, h.start)
  {
    FindTextSpec(content, pat, maxres);
    var r := FindText(content, pat, maxres);
    if maxres <= 0 || |r| < maxres {
      assert Covered(r, j);
    }
    h := r[0];
  }

  /** The first value of an element search that has a match is an element
      of the requested kind that meets the restrictions. */
  lemma FirstValueOfElements(d: Doc, kind: string, restrictions: map<string, string>, maxres: int, k: int)
    requires k in d.elements && Matches(d.elements[k], kind, restrictions)
    ensures var r := FirstValue(d, ElementSearch(kind, restrictions, maxres));
      r.Ok? && r.value.FoundElement? && Matches(r.value.element, kind, restrictions)
  {
    HasMatchSpec(d, ElementSearch(kind, restrictions, maxres));
  }

  /** `at(-1).value()` as written gives the empty text rather than the last
      character, since `text[-1:0]` is empty: `_execute` turns an end of 0
      after a negative start into the length, `value` does not. */
  lemma FirstValueAtLastAsWritten(d: Doc)
    requires Valid(d) && |d.content| > 0
    ensures FirstValue(d, At(-1)) == Ok(FoundText([]))
  {
    assert Hits(d, At(-1)) == [Hit(-1, 0)];
    assert -1 !in d.elements;
  }

  /** `value` with the first hit adjusted as `_execute` adjusts it. */
  function FirstValueAdjusted(d: Doc, sel: Selector): (r: Result<Found>)
    ensures r.Err? <==> !HasMatch(d, sel)
    ensures r.Err? ==> r.error == NoValues
  {
    match FirstHit(d, sel)
    case None => Err(NoValues)
    case Some(h) =>
      var (s, e) := Adjust(|d.content|, h.start, h.end);
      if e - s == 1 && s in d.elements then Ok(FoundElement(d.elements[s]))
      else Ok(FoundText(PySlice(d.content, s, e)))
  }

  /** With the adjustment, `at(-k).value()` is the element or the
      character `k` places from the end. */
  lemma FirstValueFromEnd(d: Doc, k: int)
    requires 1 <= k <= |d.content|
    ensures var i := |d.content| - k;
      FirstValueAdjusted(d, At(-k))
        == if i in d.elements then Ok(FoundElement(d.elements[i])) else Ok(FoundText([d.content[i]]))
  {
    var i := |d.content| - k;
    assert Hits(d, At(-k)) == [Hit(-k, -k + 1)];
    assert Adjust(|d.content|, -k, -k + 1) == (i, i + 1);
    assert d.content[i..i + 1] == [d.content[i]];
  }

  /** On hits with non-negative offsets the adjustment changes nothing. */
  lemma FirstValueAdjustedAgrees(d: Doc, sel: Selector)
    requires FirstHit(d, sel).Some? ==> FirstHit(d, sel).value.start >= 0 && FirstHit(d, sel).value.end >= 0
    ensures FirstValueAdjusted(d, sel) == FirstValue(d, sel)
  {
  }
}

=== FILE: selection.dfy ===
/**
  Region selection ("blip refs"): resolving a selector against a document
  into an ordered list of hits, each a (start, end) offset pair. Hits are
  computed over the document as it is when the selection is resolved.
*/
module Selection {
  import opened Common
  import opened Document

  datatype Hit = Hit(start: int, end: int)

  /** What a selection refers to. A cap `maxres <= 0` means no cap. */
  datatype Selector =
    | Whole                                                                   // all() with no pattern
    | TextSearch(pattern: seq<char>, maxres: int)
    | ElementSearch(kind: string, restrictions: map<string, string>, maxres: int)
    | Range(start: int, end: int)

  /** `Blip.at`: the one position at `index`, one character wide on any
      document. */
  function At(index: int): (r: Selector)
    ensures WellFormed(r)
    ensures forall d :: Hits(d, r) == [Hit(index, index + 1)]
  {
    Range(index, index + 1)
  }

  /*** Text search ***/

  predicate OccursAt(content: seq<char>, pat: seq<char>, j: int)
  {
    0 <= j && j + |pat| <= |content| && content[j..j + |pat|] == pat
  }

  /** `str.find(pat, from)`: the first occurrence at or after `from`. */
  function IndexOf(content: seq<char>, pat: seq<char>, from: nat): (r: Option<nat>)
    requires |pat| > 0
    ensures r.Some? ==> from <= r.value && OccursAt(content, pat, r.value)
    decreases |content| - from
  {
    if from + |pat| > |content| then None
    else if content[from..from + |pat|] == pat then Some(from)
    else IndexOf(content, pat, from + 1)
  }

  /** `IndexOf` finds the FIRST occurrence at or after `from`, and reports
      none only when there is none. */
  lemma {:induction false} IndexOfFirst(content: seq<char>, pat: seq<char>, from: nat, j: int)
    requires |pat| > 0 && from <= j && OccursAt(content, pat, j)
    ensures IndexOf(content, pat, from).Some?
    ensures IndexOf(content, pat, from).value <= j
    decreases |content| - from
  {
    if from + |pat| <= |content| && content[from..from + |pat|] != pat {
      IndexOfFirst(content, pat, from + 1, j);
    }
  }

  /** Offset `j` is the start of a hit or lies strictly inside one. */
  predicate Covered(hits: seq<Hit>, j: int)
  {
    exists k :: 0 <= k < |hits| && hits[k].start <= j < hits[k].end
  }

  /** Hits that do not overlap, in increasing order. */
  predicate Ordered(hits: seq<Hit>)
  {
    forall k :: 0 <= k < |hits| - 1 ==> hits[k].end <= hits[k + 1].start
  }

  /** The text branch of `BlipRefs._find`, resumed at `from` after `count`
      hits: successive non-overlapping occurrences, left to right, stopping
      once the count reaches `maxres`. */
  function FindTextFrom(content: seq<char>, pat: seq<char>, maxres: int, from: nat, count: nat): (r: seq<Hit>)
    requires |pat| > 0 && from <= |content|
    ensures forall k :: 0 <= k < |r| ==>
      && r[k].end == r[k].start + |pat|
      && from <= r[k].start
      && OccursAt(content, pat, r[k].start)
    ensures Ordered(r)
    ensures count < maxres ==> |r| <= maxres - count
    decreases |content| - from
  {
    match IndexOf(content, pat, from)
    case None => []
    case Some(i) =>
      if count + 1 == maxres then [Hit(i, i + |pat|)]
      else
        [Hit(i, i + |pat|)] + FindTextFrom(content, pat, maxres, i + |pat|, count + 1)
  }

  function FindText(content: seq<char>, pat: seq<char>, maxres: int): (r: seq<Hit>)
    requires |pat| > 0 || maxres > 0
    ensures forall k :: 0 <= k < |r| ==> r[k].end == r[k].start + |pat| && OccursAt(content, pat, r[k].start)
    ensures Ordered(r)
    ensures maxres > 0 ==> |r| <= maxres
    ensures |pat| == 0 ==> |r| == maxres && forall k :: 0 <= k < |r| ==> r[k] == Hit(0, 0)
  {
    if |pat| == 0 then seq(maxres, _ => Hit(0, 0))
    else FindTextFrom(content, pat, maxres, 0, 0)
  }

  /** Below the cap, the search misses nothing: every occurrence at or after
      `from` is a hit or begins inside an earlier hit. */
  lemma {:induction false} FindTextFromComplete(content: seq<char>, pat: seq<char>, maxres: int, from: nat, count: nat, j: int)
    requires |pat| > 0 && from <= |content|
    requires maxres <= count || |FindTextFrom(content, pat, maxres, from, count)| < maxres - count
    requires from <= j && OccursAt(content, pat, j)
    ensures Covered(FindTextFrom(content, pat, maxres, from, count), j)
    decreases |content| - from
  {
    var r := FindTextFrom(content, pat, maxres, from, count);
    IndexOfFirst(content, pat, from, j);
    var i := IndexOf(content, pat, from).value;
    assert r[0] == Hit(i, i + |pat|);
    if j < i + |pat| {
      assert r[0].start <= j < r[0].end;
    } else {
      assert count + 1 != maxres;
      var rest := FindTextFrom(content, pat, maxres, i + |pat|, count + 1);
      assert r == [Hit(i, i + |pat|)] + rest;
      assert |rest| == |r| - 1;
      FindTextFromComplete(content, pat, maxres, i + |pat|, count + 1, j);
      CoveredPrepend(r[0], rest, j);
    }
  }

  lemma CoveredPrepend(h: Hit, rest: seq<Hit>, j: int)
    requires Covered(rest, j)
    ensures Covered([h] + rest, j)
  {
    var k :| 0 <= k < |rest| && rest[k].start <= j < rest[k].end;
    assert ([h] + rest)[k + 1] == rest[k];
  }

  /** `_find` for text: every hit is an occurrence of the pattern, hits are
      increasing and disjoint, at most `maxres` of them when `maxres > 0`,
      and below that cap every occurrence is a hit or starts inside one. */
  lemma FindTextSpec(content: seq<char>, pat: seq<char>, maxres: int)
    requires |pat| > 0 || maxres > 0
    ensures var r := FindText(content, pat, maxres);
      && (forall k :: 0 <= k < |r| ==> r[k].end == r[k].start + |pat| && OccursAt(content, pat, r[k].start))
      && Ordered(r)
      && (maxres > 0 ==> |r| <= maxres)
      && ((maxres <= 0 || |r| < maxres) ==> forall j :: OccursAt(content, pat, j) ==> Covered(r, j))
  {
    var r := FindText(content, pat, maxres);
    if |pat| > 0 && (maxres <= 0 || |r| < maxres) {
      forall j | OccursAt(content, pat, j) ensures Covered(r, j) {
        FindTextFromComplete(content, pat, maxres, 0, 0, j);
      }
    }
  }

  /** A cap only cuts the uncapped hit list short: the first `maxres` hits
      are the same with or without it. */
  lemma {:induction false} FindTextFromCapIsPrefix(content: seq<char>, pat: seq<char>, maxres: int, from: nat, count: nat)
    requires |pat| > 0 && from <= |content| && count < maxres
    ensures var all := FindTextFrom(content, pat, 0, from, count);
      FindTextFrom(content, pat, maxres, from, count)
        == all[..if |all| < maxres - count then |all| else maxres - count]
    decreases |content| - from
  {
    match IndexOf(content, pat, from)
    case None =>
    case Some(i) =>
      var h := Hit(i, i + |pat|);
      var next := i + |pat|;
      var rest := FindTextFrom(content, pat, 0, next, count + 1);
      FindTextFromNext(content, pat, 0, from, count, i);
      FindTextFromNext(content, pat, maxres, from, count, i);
      if count + 1 < maxres {
        FindTextFromCapIsPrefix(content, pat, maxres, next, count + 1);
        CapCons(h, rest, FindTextFrom(content, pat, maxres, next, count + 1), maxres - count);
      } else {
        assert ([h] + rest)[..1] == [h];
      }
  }

  /** One step of the search: the hit found first, then the search after it. */
  lemma FindTextFromNext(content: seq<char>, pat: seq<char>, maxres: int, from: nat, count: nat, i: nat)
    requires |pat| > 0 && from <= |content| && IndexOf(content, pat, from) == Some(i)
    ensures i + |pat| <= |content|
    ensures FindTextFrom(content, pat, maxres, from, count)
      == if count + 1 == maxres then [Hit(i, i + |pat|)]
         else [Hit(i, i + |pat|)] + FindTextFrom(content, pat, maxres, i + |pat|, count + 1)
  {
  }

  /** Putting one hit in front of a list capped at `k - 1` gives the longer
      list capped at `k`. */
  lemma CapCons<T>(h: T, rest: seq<T>, capped: seq<T>, k: int)
    requires k >= 2
    requires capped == rest[..if |rest| < k - 1 then |rest| else k - 1]
    ensures [h] + capped == ([h] + rest)[..if |[h] + rest| < k then |[h] + rest| else k]
  {
    var n := if |rest| < k - 1 then |rest| else k - 1;
    assert ([h] + rest)[..n + 1] == [h] + rest[..n];
  }

  lemma FindTextCapIsPrefix(content: seq<char>, pat: seq<char>, maxres: int)
    requires |pat| > 0 && maxres > 0
    ensures var all := FindText(content, pat, -1);
      FindText(content, pat, maxres) == all[..if |all| < maxres then |all| else maxres]
  {
    FindTextFromCapIsPrefix(content, pat, maxres, 0, 0);
    UncappedIgnoresCount(content, pat, -1, 0, 0, 0, 0);
  }

  /** Without a cap neither the cap's value nor the running count plays a
      part: any two uncapped searches from the same offset agree. */
  lemma {:induction false} UncappedIgnoresCount(content: seq<char>, pat: seq<char>, a: int, b: int, from: nat, ca: nat, cb: nat)
    requires |pat| > 0 && from <= |content| && a <= 0 && b <= 0
    ensures FindTextFrom(content, pat, a, from, ca) == FindTextFrom(content, pat, b, from, cb)
    decreases |content| - from
  {
    match IndexOf(content, pat, from)
    case None =>
      assert FindTextFrom(content, pat, a, from, ca) == [];
      assert FindTextFrom(content, pat, b, from, cb) == [];
    case Some(i) =>
      FindTextFromNext(content, pat, a, from, ca, i);
      FindTextFromNext(content, pat, b, from, cb, i);
      UncappedIgnoresCount(content, pat, a, b, i + |pat|, ca + 1, cb + 1);
  }

  /** Searching "banana" for "a" without a cap gives (1,2), (3,4), (5,6). */
  lemma BananaExample()
    ensures FindText("banana", "a", -1) == [Hit(1, 2), Hit(3, 4), Hit(5, 6)]
  {
    var c := "banana";
    assert IndexOf(c, "a", 0) == Some(1) by { assert c[0..1][0] == 'b'; assert c[1..2] == "a"; }
    assert IndexOf(c, "a", 2) == Some(3) by { assert c[2..3][0] == 'n'; assert c[3..4] == "a"; }
    assert IndexOf(c, "a", 4) == Some(5) by { assert c[4..5][0] == 'n'; assert c[5..6] == "a"; }
    assert IndexOf(c, "a", 6) == None;
  }

  /*** Element search ***/

  /** `BlipRefs._elem_matches`: the element has the requested kind and every
      restricted property has the requested value (a missing property never
      matches). */
  predicate Matches(el: Element, kind: string, restrictions: map<string, string>)
    ensures Matches(el, kind, restrictions) ==> restrictions.Keys <= el.props.Keys
    ensures Matches(el, kind, map[]) <==> el.kind == kind
  {
    && el.kind == kind
    && forall key :: key in restrictions ==> key in el.props && el.props[key] == restrictions[key]
  }

  /** The element branch of `BlipRefs._find` over the offsets `keys`, after
      `count` hits so far. */
  function FindElementsIn(elements: map<int, Element>, keys: seq<int>, kind: string,
                          restrictions: map<string, string>, maxres: int, count: nat): (r: seq<Hit>)
    requires forall i :: 0 <= i < |keys| ==> keys[i] in elements
    ensures forall k :: 0 <= k < |r| ==>
      && r[k].end == r[k].start + 1
      && r[k].start in elements
      && Matches(elements[r[k].start], kind, restrictions)
    ensures StrictlyIncreasing(keys) ==> Ordered(r)
    ensures StrictlyIncreasing(keys) ==> forall k :: 0 <= k < |r| ==> |keys| > 0 && keys[0] <= r[k].start
    ensures count < maxres ==> |r| <= maxres - count
    decreases |keys|
  {
    if |keys| == 0 then []
    else
      var k := keys[0];
      if Matches(elements[k], kind, restrictions) then
        if count + 1 == maxres then [Hit(k, k + 1)]
        else [Hit(k, k + 1)] + FindElementsIn(elements, keys[1..], kind, restrictions, maxres, count + 1)
      else FindElementsIn(elements, keys[1..], kind, restrictions, maxres, count)
  }

  /** The element branch of `BlipRefs._find`: one-wide hits on matching
      elements, in ascending offset order, at most `maxres` of them when
      `maxres > 0`. */
  function FindElements(elements: map<int, Element>, kind: string,
                        restrictions: map<string, string>, maxres: int): (r: seq<Hit>)
    ensures forall k :: 0 <= k < |r| ==>
      r[k].end == r[k].start + 1 && r[k].start in elements && Matches(elements[r[k].start], kind, restrictions)
    ensures Ordered(r)
    ensures maxres > 0 ==> |r| <= maxres
  {
    FindElementsIn(elements, Ascending(elements.Keys), kind, restrictions, maxres, 0)
  }

  lemma {:induction false} FindElementsInComplete(elements: map<int, Element>, keys: seq<int>, kind: string,
                                                  restrictions: map<string, string>, maxres: int, count: nat, i: int)
    requires forall i :: 0 <= i < |keys| ==> keys[i] in elements
    requires maxres <= count || |FindElementsIn(elements, keys, kind, restrictions, maxres, count)| < maxres - count
    requires 0 <= i < |keys| && Matches(elements[keys[i]], kind, restrictions)
    ensures Hit(keys[i], keys[i] + 1) in FindElementsIn(elements, keys, kind, restrictions, maxres, count)
    decreases |keys|
  {
    if i > 0 {
      var k := keys[0];
      if Matches(elements[k], kind, restrictions) {
        FindElementsInComplete(elements, keys[1..], kind, restrictions, maxres, count + 1, i - 1);
      } else {
        FindElementsInComplete(elements, keys[1..], kind, restrictions, maxres, count, i - 1);
      }
    }
  }

  lemma FindElementsHas(elements: map<int, Element>, kind: string, restrictions: map<string, string>, maxres: int, k: int)
    requires k in elements && Matches(elements[k], kind, restrictions)
    requires var r := FindElements(elements, kind, restrictions, maxres); maxres <= 0 || |r| < maxres
    ensures Hit(k, k + 1) in FindElements(elements, kind, restrictions, maxres)
  {
    var keys := Ascending(elements.Keys);
    var r := FindElementsIn(elements, keys, kind, restrictions, maxres, 0);
    assert r == FindElements(elements, kind, restrictions, maxres);
    var i := AscendingIndex(elements.Keys, k);
    FindElementsInComplete(elements, keys, kind, restrictions, maxres, 0, i);
    assert Hit(keys[i], keys[i] + 1) in r;
  }

  /** `_find` for elements: the hits are exactly (k, k + 1) for the matching
      elements in ascending offset order, cut short after `maxres` hits when
      `maxres > 0`. */
  lemma FindElementsSpec(elements: map<int, Element>, kind: string, restrictions: map<string, string>, maxres: int)
    ensures var r := FindElements(elements, kind, restrictions, maxres);
      && (forall k :: 0 <= k < |r| ==>
            r[k].end == r[k].start + 1 && r[k].start in elements && Matches(elements[r[k].start], kind, restrictions))
      && Ordered(r)
      && (maxres > 0 ==> |r| <= maxres)
      && ((maxres <= 0 || |r| < maxres) ==>
            forall k :: k in elements && Matches(elements[k], kind, restrictions) ==> Hit(k, k + 1) in r)
  {
    var keys := Ascending(elements.Keys);
    var r := FindElementsIn(elements, keys, kind, restrictions, maxres, 0);
    assert r == FindElements(elements, kind, restrictions, maxres);
    assert StrictlyIncreasing(keys);
    if maxres <= 0 || |r| < maxres {
      forall k | k in elements && Matches(elements[k], kind, restrictions) ensures Hit(k, k + 1) in r {
        FindElementsHas(elements, kind, restrictions, maxres, k);
      }
    }
  }

  /*** Resolving a selector ***/

  /** A text search for the empty pattern has no finite hit list unless it
      is capped: `find` keeps answering the offset it is asked from. */
  predicate WellFormed(sel: Selector)
  {
    sel.TextSearch? ==> |sel.pattern| > 0 || sel.maxres > 0
  }

  /** The hit list of a selection, resolved against `d`: one hit for the
      whole document or an explicit range, and ordered, non-overlapping
      hits within the cap for a search. */
  function Hits(d: Doc, sel: Selector): (r: seq<Hit>)
    requires WellFormed(sel)
    ensures sel.Whole? ==> r == [Hit(0, |d.content|)]
    ensures sel.Range? ==> r == [Hit(sel.start, sel.end)]
    ensures Ordered(r)
    ensures sel.TextSearch? && sel.maxres > 0 ==> |r| <= sel.maxres
    ensures sel.ElementSearch? && sel.maxres > 0 ==> |r| <= sel.maxres
    ensures sel.ElementSearch? ==> forall k :: 0 <= k < |r| ==> r[k].start in d.elements
  {
    match sel
    case Whole => [Hit(0, |d.content|)]
    case TextSearch(pat, maxres) => FindText(d.content, pat, maxres)
    case ElementSearch(kind, restrictions, maxres) => FindElements(d.elements, kind, restrictions, maxres)
    case Range(start, end) => [Hit(start, end)]
  }

  /** The first hit of a selection, which is all that `__nonzero__` and
      `value` look at. An uncapped search for the empty pattern has no
      finite hit list, but its first hit is `(0, 0)`, since `find('', 0)`
      is 0. */
  function FirstHit(d: Doc, sel: Selector): (r: Option<Hit>)
    ensures WellFormed(sel) ==> (r.None? <==> |Hits(d, sel)| == 0)
    ensures WellFormed(sel) && r.Some? ==> r.value == Hits(d, sel)[0]
    ensures sel.TextSearch? && |sel.pattern| == 0 ==> r == Some(Hit(0, 0))
  {
    if !WellFormed(sel) then Some(Hit(0, 0))
    else if |Hits(d, sel)| == 0 then None
    else Some(Hits(d, sel)[0])
  }

  /** `BlipRefs.__nonzero__`: the whole document and an explicit range
      always have their hit, and so does any search for the empty pattern. */
  predicate HasMatch(d: Doc, sel: Selector)
    ensures sel.Whole? || sel.Range? ==> HasMatch(d, sel)
    ensures sel.TextSearch? && |sel.pattern| == 0 ==> HasMatch(d, sel)
  {
    FirstHit(d, sel).Some?
  }

  /** A text search has a match exactly when the pattern occurs, and an
      element search exactly when some element matches, whatever the cap. */
  lemma HasMatchSpec(d: Doc, sel: Selector)
    ensures sel.TextSearch? ==>
      (HasMatch(d, sel) <==> exists j :: OccursAt(d.content, sel.pattern, j))
    ensures sel.ElementSearch? ==>
      (HasMatch(d, sel) <==> exists k :: k in d.elements && Matches(d.elements[k], sel.kind, sel.restrictions))
    ensures sel.Whole? || sel.Range? ==> HasMatch(d, sel)
  {
    match sel
    case TextSearch(pat, maxres) =>
      if |pat| == 0 {
        assert OccursAt(d.content, pat, 0);
      } else {
        FindTextSpec(d.content, pat, maxres);
        var r := FindText(d.content, pat, maxres);
        if |r| > 0 { assert OccursAt(d.content, pat, r[0].start); }
      }
    case ElementSearch(kind, restrictions, maxres) =>
      FindElementsSpec(d.elements, kind, restrictions, maxres);
      var r := FindElements(d.elements, kind, restrictions, maxres);
      if |r| > 0 { assert r[0].start in d.elements; }
    case _ =>
  }
}
